=== FILE: README.md ===
# metering_agent — a Dafny model of the sampling core

`metering_agent.py` is a small monitoring agent. It reads a YAML configuration and builds
three things from it:

- a list of **collectors**, each producing one number per sampling pass;
- a list of **publishers**, which write the collected values to a SQL table, stdout or a
  JSON line;
- a list of **conditional interval rules**, which choose how long to wait between passes.

The agent then runs in one of three run modes: `once`, `twice` or `loop`.

This project models the parts of the agent that decide what gets published:

- **Derived values.** `CollectorBase.read` turns a raw sample into a result. Depending on
  the mode, the result is the sample itself, the sample divided by 1024 or 1024², or a
  rate over the previous sample. `niceresult` and `convert_to_reqtype` render the result.
  This is in `values.dfy` and `collector.dfy`.
- **Interval selection.** `Controller.wait` picks the interval from the baseline and the
  priority-ordered rules at a given hour and weekday. This is in `scheduler.dfy`.
- **Loading.** `loadconfig` fills in rule defaults and checks the run-mode whitelist.
  Collectors get the default mode `passthroug`, which is spelled that way in the source.
  Types are resolved in order. This is in `config.dfy`.
- **The type registry.** `get_class` resolves a type name to a built-in class, a cached
  plugin class, or a class loaded from `plugin_<name>.py`, and names its two errors. This
  is in `registry.dfy`.
- **Keyed publishers.** The SQL publisher builds an insert statement with bound
  parameters. The JSON publisher builds an object. This is in `publisher.dfy`.
- **The controller and run modes.** `read_all`, `wait` and the `once` / `twice` / `loop`
  sequences of `main` are in `controller.dfy`.

The model replaces the agent's side effects with inputs:

- A raw sample is a `real` input: what `read_low` returned on that pass.
- The clock is an hour plus a lower-case weekday abbreviation.
- The file system and the module namespace are an `Env`: the set of global class names,
  plus the symbols each plugin file present on disk would define once executed.
- Python's `/` on these values is exact division of reals.
- `int()` truncates toward zero.
- `str()` of a value is kept symbolic, as `StrOf(v)`.

## Model

| member | source | states |
|---|---|---|
| Values.TruncateTowardZero | metering_agent.py:140-141 | `int(val)` rounds toward zero. For non-negative input the result is the largest integer not above it. For negative input it is the smallest integer not below it. |
| Values.Convert | metering_agent.py:139-146 | The conversion yields no value exactly when the declared data type is not `int`, `float` or `str`. |
| Values.ConvertLossless | metering_agent.py:139-146 | Any known data type preserves an integral result. Conversion to `int` preserves a result exactly when the result is integral. An unknown data type yields nothing. |
| Collector.ParseMode | metering_agent.py:120-135 | Exactly the six mode strings the engine tests are recognised. Each one maps back to its name, so recognition and naming are inverses. |
| Collector.New | metering_agent.py:106-113 | A freshly constructed collector has no measured sample, no previous sample and no result. Its labels and mode are as given. |
| Collector.Read | metering_agent.py:118-137 | After a read, the new sample is both the measured and the previous sample, and nothing else in the collector changes. A unit mode always yields a result. Any other mode yields none when there is no previous sample or zero elapsed seconds. |
| Collector.ReadMatchesDerive | metering_agent.py:118-137 | For every recognised mode, the string-dispatched engine agrees with the independent reference table `Derive`. For an unrecognised mode it yields None without history, and otherwise keeps the old result. |
| Collector.UnitModeIgnoresHistory | metering_agent.py:120-125 | In passthrough and the two divide modes, the result depends only on the raw sample. It ignores the previous sample, the elapsed time and the earlier result. |
| Collector.RateModes | metering_agent.py:129-135 | Given a previous sample p and s ≠ 0 elapsed seconds, the three increment modes yield `r − p`, `(r − p)/s` and `(r − p)·60/s`. |
| Collector.FirstReadUndefined | metering_agent.py:126-128 | The first read of a collector whose mode is not a unit mode has no result, whatever the sample and elapsed time. |
| Collector.TwoSampleRate | metering_agent.py:126-136 | For a per-second collector, samples r0 then r1, e seconds apart, yield no result and then `(r1 − r0)/e`. If e is 0, the second read also yields nothing. |
| Collector.ReadPreservesValid | metering_agent.py:126-136 | Reads preserve the invariant that an unrecognised-mode collector holds no result. So the branch that keeps the old result only ever keeps None. |
| Collector.ReadMany | metering_agent.py:118-137 | Any sequence of reads keeps the collector's name, shortname and mode. After the reads, the last sample is the previous sample. |
| Collector.UnknownModeNeverDefined | metering_agent.py:126-136 | Any number of reads leaves a valid collector with an unrecognised mode without a result. |
| Collector.NiceResult | metering_agent.py:148-151 | The collector reports "NA" exactly when it has no result. A shown value is empty exactly when the data type is unknown. A shown value denotes the result whenever the type is known and the result is integral. |
| Scheduler.Step | metering_agent.py:409-419 | One iteration never lowers the running priority. It takes a rule's priority and interval exactly when the rule applies and does not rank below the running priority, and otherwise keeps the state. |
| Scheduler.Run | metering_agent.py:404-419 | After any number of rules, the running priority is non-negative and no lower than after one rule fewer. |
| Scheduler.RunOrigin | metering_agent.py:404-419 | After any number of rules, the state is the initial (0, baseline) or the (priority, interval) of an eligible rule among them. |
| Scheduler.SelectInterval | metering_agent.py:403-420 | The selected interval is the baseline or the interval of an applicable rule with non-negative priority. |
| Scheduler.InvariantStep | metering_agent.py:409-419 | One loop iteration keeps the loop invariant described under `Scheduler.RunInvariant`. |
| Scheduler.RunInvariant | metering_agent.py:403-419 | Loop invariant of the selection: the running priority is at least 0 and at least every applicable priority so far. With no eligible rule the state is (0, baseline). Otherwise some rule wins and the state is its (priority, interval). |
| Scheduler.WinnerUnique | metering_agent.py:416-419 | At most one rule wins. |
| Scheduler.SelectIntervalSpec | metering_agent.py:403-419 | The selected interval is the baseline when no applicable rule has non-negative priority. Otherwise a winner exists, and the interval is the winner's. The winner is the highest-priority applicable rule, with ties going to the later rule. |
| Scheduler.LaterRuleWinsTie | metering_agent.py:416-419 | Of two applicable rules with equal non-negative priority, the later rule's interval is chosen. |
| Scheduler.WorkedExamples | metering_agent.py:403-419 | Take a Monday rule (priority 1, 10 s) and a 9–17 h rule (priority 2, 30 s). Monday 10 h selects 30 s. Monday 20 h selects 10 s. Tuesday 20 h selects the baseline. |
| Registry.ClassPrefix | metering_agent.py:424-430 | Exactly the three categories "database", "coll" and "pub" have a prefix, and each prefix ends in `_`. |
| Registry.ClassKeyInjective | metering_agent.py:424-432 | Within one category, two type names ask for the same class name exactly when they are equal. |
| Registry.KeysOfCategoriesDiffer | metering_agent.py:424-430 | Class names of two different prefixed categories never coincide, whatever the type names, because the prefixes start with different letters. |
| Registry.GetClass | metering_agent.py:423-446 | Resolution succeeds exactly for a name that is a global, is cached, or is defined by its plugin file. A success never loses or alters a cached class. A file is executed only on a miss in both the globals and the cache. That file is `plugin_<name>.py`, and its class is then cached under the prefixed name. Without execution the cache is unchanged. |
| Registry.ResolutionOrder | metering_agent.py:432-446 | Resolution tries, in order: a global, then the cache, then the plugin file. A missing file gives "cannot load file", and a file without the symbol gives "cannot load class". |
| Registry.FailureMessage | metering_agent.py:437-445 | A failed resolution raises "Error, cannot load class \"<prefixed name>\"" when the plugin file exists, and "Error, cannot load file \"plugin_<name>.py\"" otherwise. It happens only for a name neither global nor cached. |
| Registry.SecondResolutionIsCacheHit | metering_agent.py:435-443 | Resolving the same name again with the cache a success left behind returns the same class, changes nothing and executes no file. |
| Registry.GetClassKeepsCacheConsistent | metering_agent.py:435-446 | Resolution keeps every cached class defined by its file under its key. The class returned carries the prefixed symbol the name and category ask for. |
| Registry.ResolveAll | metering_agent.py:452-453 | Resolving a list of requests in order succeeds whenever every request resolves against the initial cache. A success returns one class per request and only extends the cache. From a consistent cache, each class carries its request's prefixed symbol and the cache stays consistent. |
| Registry.GetClassLoadsFromPlugins | metering_agent.py:437-441 | Whatever a successful resolution adds to the cache was loaded from the plugin file of the name, which defines it. |
| Registry.ResolvableBefore | metering_agent.py:432-446 | A name that resolves after plugin loads in its own category, or in another category with a prefix, already resolved before them: the keys those loads added cannot be its key. |
| Registry.ResolveAllOneCategory | metering_agent.py:452-453 | Requests of one category resolve in turn exactly when each resolves against the initial cache. What they add was loaded from plugin files. |
| Config.Lower | metering_agent.py:469 | Lower-casing maps each character to its lower-case form, keeps the length, and leaves no upper-case ASCII letter. |
| Config.LoadRule | metering_agent.py:465-476 | A rule loads exactly when it has an interval; otherwise loading fails with a missing "interval" key. Defaults are name "", no day, no hour bounds and priority 1. The day is lower-cased. |
| Config.UnboundedRuleAlwaysMatches | metering_agent.py:465-476 | A rule written without day or hour bounds applies at every hour of every day. |
| Config.DayMatchIgnoresCase | metering_agent.py:469 | A rule with only a day applies on a weekday exactly when the lower-cased day equals it. |
| Config.LoadRules | metering_agent.py:462-477 | The rules load exactly when every entry has an interval. Rule i is then the loaded entry i, in order. |
| Config.ParseRunMode | metering_agent.py:459-461 | A run mode is accepted exactly when it is "once", "twice" or "loop", and it maps back to its name. Any other string fails with that string as the unknown run mode. |
| Config.LoadSchedule | metering_agent.py:456-477 | Without a collector section the defaults apply: 5 s, "once", no rules. A section without a run mode fails, and so does a run mode off the whitelist. A whitelisted run mode loads exactly when its rules load, and otherwise fails with the rules' error. On success the interval defaults to 5, and the rules are the loaded rules. |
| Config.WithAgent | metering_agent.py:488-489 | The inputs that get a collector are exactly those naming an agent. |
| Config.WithAgentSingle | metering_agent.py:488-492 | One input contributes itself exactly when it names an agent. |
| Config.WithAgentAppend | metering_agent.py:481-492 | The filter distributes over concatenation, so the collectors follow the input order, one per input naming an agent. |
| Config.InputMode | metering_agent.py:485-487 | An input asks for its calcmode. Without one it asks for "passthroug", which the engine recognises as passthrough. |
| Config.ConstructedMode | metering_agent.py:187-212 | A collector constructor keeps the requested mode, unless its class forces one. The built-in network counters force `increment_in_sec`, and a plugin class forces the mode its environment records. |
| Config.LoadInputs | metering_agent.py:479-493 | One fresh collector is built per input naming an agent, with that input's labels and data type. The load succeeds exactly when every agent resolves against the initial cache. It only extends the cache. Every key it adds is the "coll" key of an agent some input names, holding a class loaded from that agent's plugin file. From a consistent cache, each collector's mode is `ExpectedMode`: `increment_in_sec` for the built-in network-counter agents, a plugin class's forced mode, and otherwise the input's calcmode (default "passthroug"). The cache stays consistent. |
| Config.ConstructedModeIsExpected | metering_agent.py:187-212 | From a consistent cache, the mode the constructor of the resolved class keeps is `ExpectedMode`, a value the environment alone determines. The built-in network counters force `increment_in_sec`, a plugin class its recorded forced mode, and any other class keeps the requested mode. |
| Config.BuiltinNetworkCounter | metering_agent.py:424-433 | The prefixed class name of a "coll" type names a network-counter built-in exactly when the type name is that collector's name. |
| Config.DefaultModeIsPassthrough | metering_agent.py:485-487 | An input without calcmode, served by a class that does not force a mode, computes the recognised passthrough mode. |
| Config.ResolveTypes | metering_agent.py:452-453 | Resolving a list of type names of one category succeeds exactly when each resolves against the initial cache. |
| Config.AgentKeysGrow | metering_agent.py:488-492 | Loading one more input adds to the cache only the "coll" key of its agent, and nothing when it names none. So every added key belongs to an agent an input names. |
| Config.CollectorsGrow | metering_agent.py:488-492 | Appending the last input's collector keeps every collector lined up with the input it was built from, and with that input's expected mode. |
| Config.ResolvedBeforeLoading | metering_agent.py:448-501 | When the databases, agents and outputs of a configuration all resolve in turn, each of them resolved against the initial cache. It goes through `Registry.ResolvableBefore`, which uses `Registry.KeysOfCategoriesDiffer`: keys an earlier category added cannot be the key a later category resolves. |
| Config.LoadConfig | metering_agent.py:448-501 | A load succeeds whenever every database, agent and output type resolves against the initial cache and the collector section is good (for entries that carry the keys listed under Left out). A load that succeeds had every such type resolvable, so an unresolvable type fails it. A successful load carries the schedule the collector section defines. It has one fresh collector per input naming an agent, with that input's labels, and one publisher per output type. From a consistent cache, each collector's mode is `ExpectedMode`, each publisher's class is `Publisher_<type>`, and the cache stays consistent. A bad collector section fails with its own error once the databases resolve. |
| Publisher.KeyedMetrics | metering_agent.py:336-337 | The metrics a keyed publisher includes all have a non-empty shortname and a defined result. |
| Publisher.KeyedMetricsMembers | metering_agent.py:336-337 | The included metrics are exactly the list's metrics with a non-empty shortname and a defined result. |
| Publisher.KeyedMetricsAppend | metering_agent.py:336-341 | Filtering distributes over concatenation, so the list order is kept. |
| Publisher.AppendColumns | metering_agent.py:336-338 | The column loop appends ",shortname" for each included metric, in order. |
| Publisher.AppendPlaceholders | metering_agent.py:340-343 | The value loop appends one ",%s" per included metric. The bound parameters are the converted results, in the same order. |
| Publisher.RenderInsertShape | metering_agent.py:334-344 | The incrementally built text is the rendering of an insert statement whose first column and value lead the lists. |
| Publisher.GenerateSql | metering_agent.py:333-344 | The SQL is an insert of the timestamp column followed by the included shortnames. Its values are the backend's `current_timestamp_string` (`CURRENT_TIMESTAMP` for MySQL, `now()` for PostgreSQL, a plugin backend's own text) followed by one `%s` per parameter. Columns, values and parameters align: parameter i is the converted result of the metric in column i+1. |
| Publisher.JsonObject | metering_agent.py:368-373 | The JSON object has one key per included shortname. When shortnames repeat, each key holds the converted result of the last included metric with that shortname. |
| Publisher.JsonKeysAreSqlColumns | metering_agent.py:368-372 | The JSON keys are exactly the SQL statement's data columns. |
| Controller.Start | metering_agent.py:378-384 | The controller after loading has recorded no wait, so the first pass sees 0 elapsed seconds. It holds the loaded collectors, rules, baseline interval and run mode. |
| Controller.ReadAll | metering_agent.py:395-397 | Each collector reads its own sample with the same elapsed seconds, independently of the others. |
| Controller.ReadAllOrRaise | metering_agent.py:395-397 | As written, with acquisitions that can raise: a pass succeeds only when no collector raises, and then every collector has read its sample. Otherwise the pass fails at the first raising collector, and the exception leaves the agent. |
| Controller.RaisingSourceSilencesOthers | metering_agent.py:395-397 | With two collectors, where the second raises, the pass as written yields nothing. The isolated pass still gives the first collector its reading. |
| Controller.ReadAllIsolated | metering_agent.py:395-397 | With per-source isolation, every collector whose acquisition succeeds reads its sample. A failing collector reports an undefined result, keeps its labels and mode, and has no previous sample. |
| Controller.FailureRestartsHistory | metering_agent.py:126-136 | After an isolated pass in which its acquisition failed, a collector whose mode needs history reports an undefined result on its next read, so a rate never spans the failed pass. |
| Controller.NoFailureAgrees | metering_agent.py:395-397 | When no acquisition fails, the pass as written and the isolated pass both equal `ReadAll`. |
| Controller.Pass | metering_agent.py:395-397 | A pass changes only the collectors and keeps their number. |
| Controller.Wait | metering_agent.py:403-420 | A wait changes only the recorded elapsed seconds. |
| Controller.RunLoop | metering_agent.py:527-531 | n loop iterations publish n times, each with every collector. The final collectors are the last publication, and the final recorded wait is the interval selected at the last moment. The baseline, rules and run mode are unchanged. |
| Controller.Execute | metering_agent.py:517-531 | The loaded run mode selects the sequence that runs. "once" publishes each collector read once with the recorded elapsed seconds. "twice" publishes it read again after the wait, with the interval the wait selected. A loop publishes once per iteration. |
| Controller.RunOnce | metering_agent.py:517-519 | Run mode "once" publishes once: each collector read with its sample and the recorded elapsed seconds. No wait is recorded. |
| Controller.RunTwice | metering_agent.py:521-525 | Run mode "twice" publishes once: each collector read twice, first with the recorded elapsed seconds and then with the interval selected between the passes. That interval is recorded. |
| Controller.OnceHasNoRates | metering_agent.py:517-519 | In run mode "once" from a fresh start, a collector publishes an undefined result exactly when its mode needs history. |
| Controller.TwiceRate | metering_agent.py:521-525 | In run mode "twice", a per-second collector publishes the difference of its two samples divided by the interval selected between them. The result is undefined when that interval is 0. |
| Controller.TwiceExample | metering_agent.py:521-525 | With a 5 s baseline and no rules, samples 100 then 150 publish 10. |
| Controller.LoopPrefix | metering_agent.py:527-531 | A shorter loop publishes a prefix of what a longer one publishes. |
| Controller.LoopPass | metering_agent.py:527-531 | Pass k reads the collectors the previous pass left. It uses the interval the previous wait selected, or 0 for the first pass. |
| Controller.LoopCollectorStep | metering_agent.py:527-531 | From pass 1 on, each collector is its previous state read with its new sample and the interval selected in between. |
| Controller.LoopModePreserved | metering_agent.py:527-531 | Passes never change a collector's mode. After pass k, each collector remembers its sample of pass k. |
| Controller.LoopRate | metering_agent.py:527-531 | From pass 1 on, a per-second collector publishes the difference of its last two samples divided by the interval selected between them. |

## Left out

- Database connections (`connect`, `execute_noresult_sql`, `disconnect`) and the `databases` dictionary keyed by `refname` are I/O. The backends' timestamp expressions are kept as `Publisher.TimestampExpression`. The base class's `current_timestamp_string`, which returns `None` and would make the concatenation raise, is not modelled.
- The `read_low` implementations are I/O: the file reader, the sysfs network counters, the `/proc` load and memory parsers, the `os.popen` command runner and the SQL-query collector. A successful acquisition is the `raw` input. A `None` or text sample from `read_low` is not modelled.
- Controller.RunLoop: assumes every acquisition succeeds, and so do `Controller.RunTwice` and `Controller.RunOnce`. An exception from `read_low` (`open` at line 173, the SQL fetch at line 163, `int()` at line 257) is not caught by `read` (line 119), `read_all` (lines 396-397) or `main` (lines 518, 522, 529). So in the source one failing source ends the agent in every run mode, including `loop`. `Controller.ReadAllOrRaise` models that pass, and the finding below records the departure from per-source isolation.
- The collector-specific constructor checks are not modelled: the `direction`, `index` and `reqdata` `ValueError`s, and the `KeyError`s for missing parameters (`par["database_ref"]` at line 157, `par["file"]` at line 180, `par["interface"]` at line 191, `par["command"]` at line 269). The file names they derive are not modelled either. Only the forced `increment_in_sec` mode of the two network-counter collectors is kept.
- Config.LoadInputs: a plugin collector class is taken to keep the labels and data type it is given and to compute with `CollectorBase.read`. Only a plugin class's forced mode is modelled, recorded per class name in `Registry.Env.forcedModes`. A plugin class that overrides `read` or its labels is outside the model.
- Config.ConstructedModeIsExpected: rests on the same description of plugin constructors, given by `Registry.Env.forcedModes`, since plugin code is not part of this model.
- The `niceresult` overrides of individual collectors (kB/s, packets/s, MB formatting), `str()` text and float formatting are not modelled. `str()` is kept symbolic.
- Floating point is not modelled. Values are exact reals, so `float()` is the identity and no rounding occurs.
- The stdout, file and `NiceTable` publishers, and `json.dumps`, are output formatting. The JSON publisher is modelled up to the object it serialises.
- `sleep`, `datetime.now` and `strftime` are not modelled. The hour and weekday are inputs, and a negative interval that `sleep` would reject is not modelled.
- YAML parsing, command-line handling and `pkg_resources` are outside the core. The configuration arrives parsed, and an absent key is `None`.
- Config.LoadConfig: the success direction holds only for entries that carry the keys the loader indexes and a known database reference. The model does not have these failures. A database entry without `type` (line 453) or without `refname`, `host`, `name`, `user` or `password` (line 454) raises `KeyError`. So does an output without `type` (line 498). The `Publisher_SqlDatabase` constructor raises `KeyError` when its output lacks `database_ref`, names a reference no database defined, or lacks `tablename` or `timestampname` (lines 327-329). A collector constructor's own missing keys are listed above. A database connection constructor that fails is outside the model.
- Config.LoadRule: does not tell a key present with a null value from an absent key, though the source does. A null `dayofweek` becomes the day "none" (line 469), so the rule never matches (line 410), where the model's rule matches every day. A null `priority` makes the comparison at line 416 raise `TypeError` when the rule otherwise applies; when the day or an hour bound fails, lines 410-415 skip the rule first. A null `from_h` or `until_h` makes `int()` raise at lines 471 and 473.
- Config.LoadInputs: an input's `name`, `shortname` and `type` are required even without an agent (a `KeyError` at lines 482-484); the model holds them as plain strings, so their absence is not modelled. A null `calcmode` becomes the mode `None`, which is not modelled either.
- Executing a plugin module is not modelled. Its side effects, and what it leaves behind when the symbol is missing, are abstracted into the set of symbols it defines.
- The `int()` conversions of `interval`, `from_h` and `until_h` are not modelled. Their failures on non-numeric text are not modelled either, and the values arrive as integers. `priority` is copied unconverted at line 475 and arrives as an integer, so a non-integral priority is not modelled. `interval` arrives as a number.
- Config.Lower: lower-cases ASCII letters only. Python's `str.lower()` also folds non-ASCII letters.
- Controller.RunLoop: the loop never ends in the source. The model runs it for as many iterations as samples and moments are supplied.
- Collector.ReadMany: states only the labels, mode and last sample. Results along the way are covered by `Collector.UnknownModeNeverDefined` and the `Controller.Loop*` lemmas.
- The cache of `get_class` is keyed by the prefixed class name, but the file it loads is `plugin_<name>.py`. The model keeps both exactly as written.

## Findings

| source | as written | input that shows it | evidently intended | confidence | as-written member | corrected member |
|---|---|---|---|---|---|---|
| metering_agent.py:395-397 | `read_all` calls each collector's `read` with no exception handling. An exception from one collector's `read_low` leaves `read_all` and `main`, so no collector is published in that pass, and the agent stops, even in `loop` mode. | Two collectors, where the second one's `read_low` raises, for example because its file is missing at line 173: the pass yields nothing. | A failing source reports an undefined result for itself only, and the others are read and published. A failed acquisition has no sample, so the collector's next rate read is undefined rather than spanning two intervals. | medium; not executed | Controller.ReadAllOrRaise, Controller.RaisingSourceSilencesOthers | Controller.ReadAllIsolated, Controller.FailureRestartsHistory, Controller.NoFailureAgrees |

When every acquisition succeeds, the two passes coincide with `Controller.ReadAll` (`Controller.NoFailureAgrees`). The run modes are stated for that case.

=== FILE: collector.dfy ===
/** The derived-value engine of a collector (`CollectorBase.read`): each read
    takes a fresh raw sample and the seconds elapsed since the previous read,
    and derives a result according to the collector's transform mode. */
module Collector {
  import opened Values

  // The mode strings the engine compares against, spelled as the source spells them.
  const PassthroughName := "passthroug"
  const DivBy1024Name := "div_by_1024"
  const DivBy1024x1024Name := "div_by_1024_1024"
  const IncrementName := "increment"
  const IncrementInSecName := "increment_in_sec"
  const IncrementInMinuteName := "increment_in_minute"

  /** The transform modes as a closed enumeration. */
  datatype Mode =
    | Passthrough
    | DivBy1024
    | DivBy1024x1024
    | Increment
    | IncrementPerSecond
    | IncrementPerMinute

  function ModeName(m: Mode): string {
    match m
    case Passthrough => PassthroughName
    case DivBy1024 => DivBy1024Name
    case DivBy1024x1024 => DivBy1024x1024Name
    case Increment => IncrementName
    case IncrementPerSecond => IncrementInSecName
    case IncrementPerMinute => IncrementInMinuteName
  }

  /** Recognise a mode string; `None` for a string no branch of the engine tests. */
  function ParseMode(s: string): (r: Option<Mode>)
    ensures r.Some? ==> ModeName(r.value) == s
    ensures forall m: Mode :: ModeName(m) == s ==> r == Some(m)
  {
    if s == PassthroughName then Some(Passthrough)
    else if s == DivBy1024Name then Some(DivBy1024)
    else if s == DivBy1024x1024Name then Some(DivBy1024x1024)
    else if s == IncrementName then Some(Increment)
    else if s == IncrementInSecName then Some(IncrementPerSecond)
    else if s == IncrementInMinuteName then Some(IncrementPerMinute)
    else None
  }

  /** Modes whose result depends on the raw sample alone. */
  predicate UnitMode(mode: string) {
    mode == PassthroughName || mode == DivBy1024Name || mode == DivBy1024x1024Name
  }

  /** The three increment modes need history: none of them is a unit mode. */
  lemma IncrementModesNeedHistory()
    ensures !UnitMode(IncrementName) && !UnitMode(IncrementInSecName) && !UnitMode(IncrementInMinuteName)
  {
    assert IncrementName[0] == 'i' && IncrementInSecName[0] == 'i' && IncrementInMinuteName[0] == 'i';
    assert PassthroughName[0] == 'p' && DivBy1024Name[0] == 'd' && DivBy1024x1024Name[0] == 'd';
  }

  /** A collector: its labels, declared data type, mode string, and the three
      mutable slots of the source (`_measured`, `_last_measured`, `result`). */
  datatype CollectorState = CollectorState(
    name: string,
    shortname: string,
    dataType: string,
    mode: string,
    measured: Option<real>,
    lastMeasured: Option<real>,
    result: Option<real>)

  /** A collector as its constructor leaves it: nothing measured yet. */
  function New(name: string, shortname: string, dataType: string, mode: string): (c: CollectorState)
    ensures c.measured.None? && c.lastMeasured.None? && c.result.None?
    ensures c.name == name && c.shortname == shortname && c.dataType == dataType && c.mode == mode
  {
    CollectorState(name, shortname, dataType, mode, None, None, None)
  }

  /** `CollectorBase.read`: `raw` is what `read_low` returned, `sec` the
      elapsed seconds passed in. */
  function Read(c: CollectorState, raw: real, sec: real): (c': CollectorState)
    // the new sample becomes the previous one, whatever the mode and result
    ensures c'.measured == Some(raw) && c'.lastMeasured == Some(raw)
    // nothing but the three slots changes
    ensures c' == c.(measured := Some(raw), lastMeasured := Some(raw), result := c'.result)
    // a unit-mode result is always defined
    ensures UnitMode(c.mode) ==> c'.result.Some?
    // a result that needs history is undefined without it or without elapsed time
    ensures !UnitMode(c.mode) && (c.lastMeasured.None? || sec == 0.0) ==> c'.result.None?
  {
    var result :=
      if c.mode == PassthroughName then Some(raw)
      else if c.mode == DivBy1024Name then Some(raw / 1024.0)
      else if c.mode == DivBy1024x1024Name then Some(raw / 1048576.0)
      else if c.lastMeasured.None? || sec == 0.0 then None
      else if c.mode == IncrementName then Some(raw - c.lastMeasured.value)
      else if c.mode == IncrementInSecName then Some((raw - c.lastMeasured.value) / sec)
      else if c.mode == IncrementInMinuteName then Some(((raw - c.lastMeasured.value) * 60.0) / sec)
      else c.result;
    c.(measured := Some(raw), lastMeasured := Some(raw), result := result)
  }

  /** Reference table of the transform modes: the derived value of `raw` given
      the previous sample and the elapsed seconds, or `None` when undefined. */
  function Derive(m: Mode, raw: real, previous: Option<real>, sec: real): Option<real> {
    match m
    case Passthrough => Some(raw)
    case DivBy1024 => Some(raw / 1024.0)
    case DivBy1024x1024 => Some(raw / (1024.0 * 1024.0))
    case Increment =>
      if previous.Some? && sec != 0.0 then Some(raw - previous.value) else None
    case IncrementPerSecond =>
      if previous.Some? && sec != 0.0 then Some((raw - previous.value) / sec) else None
    case IncrementPerMinute =>
      if previous.Some? && sec != 0.0 then Some(60.0 * ((raw - previous.value) / sec)) else None
  }

  /** The string-dispatched engine agrees with the reference table on every
      recognised mode; on an unrecognised mode it yields `None` without
      history or elapsed time, and otherwise leaves the old result in place. */
  lemma ReadMatchesDerive(c: CollectorState, raw: real, sec: real)
    ensures ParseMode(c.mode).Some? ==>
      Read(c, raw, sec).result == Derive(ParseMode(c.mode).value, raw, c.lastMeasured, sec)
    ensures ParseMode(c.mode).None? ==>
      Read(c, raw, sec).result == (if c.lastMeasured.None? || sec == 0.0 then None else c.result)
  {
    if ParseMode(c.mode) == Some(IncrementPerMinute) && c.lastMeasured.Some? && sec != 0.0 {
      var d := raw - c.lastMeasured.value;
      assert (d * 60.0) / sec == 60.0 * (d / sec);
    }
  }

  /** In a unit mode the result depends on the raw sample alone: neither the
      previous sample, nor the elapsed time, nor the earlier result matters. */
  lemma UnitModeIgnoresHistory(c1: CollectorState, c2: CollectorState, raw: real, sec1: real, sec2: real)
    requires c1.mode == c2.mode && UnitMode(c1.mode)
    ensures Read(c1, raw, sec1).result == Read(c2, raw, sec2).result
  {
  }

  /** With a previous sample `p` and elapsed seconds `s != 0`, the rate modes
      yield `r - p`, `(r - p) / s` and `(r - p) * 60 / s`. */
  lemma RateModes(c: CollectorState, raw: real, sec: real)
    requires c.lastMeasured.Some? && sec != 0.0
    ensures c.mode == IncrementName ==> Read(c, raw, sec).result == Some(raw - c.lastMeasured.value)
    ensures c.mode == IncrementInSecName ==> Read(c, raw, sec).result == Some((raw - c.lastMeasured.value) / sec)
    ensures c.mode == IncrementInMinuteName ==>
      Read(c, raw, sec).result == Some((raw - c.lastMeasured.value) * 60.0 / sec)
  {
  }

  /** The first read of a collector whose mode needs history is undefined,
      whatever the raw value and elapsed time. */
  lemma FirstReadUndefined(name: string, shortname: string, dataType: string, mode: string, raw: real, sec: real)
    requires !UnitMode(mode)
    ensures Read(New(name, shortname, dataType, mode), raw, sec).result.None?
  {
  }

  /** Two successive samples `r0` then `r1` of a per-second collector, the
      second after `e != 0` seconds, yield `(r1 - r0) / e`; with `e == 0` the
      second read is undefined too. */
  lemma TwoSampleRate(name: string, shortname: string, dataType: string, r0: real, sec0: real, r1: real, e: real)
    ensures var c := Read(New(name, shortname, dataType, IncrementInSecName), r0, sec0);
      && c.result.None?
      && Read(c, r1, e).result == (if e == 0.0 then None else Some((r1 - r0) / e))
  {
  }

  /** A per-second collector whose previous sample is `r0` reads `r1` after
      `e` seconds as `(r1 - r0) / e`, or undefined when `e == 0`. */
  lemma PerSecondStep(c: CollectorState, r0: real, r1: real, e: real)
    requires c.mode == IncrementInSecName && c.lastMeasured == Some(r0)
    ensures Read(c, r1, e).result == (if e == 0.0 then None else Some((r1 - r0) / e))
  {
    IncrementModesNeedHistory();
  }

  /** The state every collector keeps: a collector whose mode no branch
      recognises never holds a result. */
  ghost predicate Valid(c: CollectorState) {
    ParseMode(c.mode).None? ==> c.result.None?
  }

  /** Reads preserve validity, so the unknown-mode branch that leaves the old
      result in place can only ever leave `None` there. */
  lemma ReadPreservesValid(c: CollectorState, raw: real, sec: real)
    requires Valid(c)
    ensures Valid(Read(c, raw, sec))
    ensures ParseMode(c.mode).None? ==> Read(c, raw, sec).result.None?
  {
    ReadMatchesDerive(c, raw, sec);
  }

  /** Any number of reads from construction leaves an unknown-mode collector
      without a result. */
  lemma {:induction false} UnknownModeNeverDefined(c0: CollectorState, raws: seq<real>, secs: seq<real>)
    requires Valid(c0) && ParseMode(c0.mode).None? && |raws| == |secs|
    ensures ReadMany(c0, raws, secs).result.None?
    ensures Valid(ReadMany(c0, raws, secs))
    decreases |raws|
  {
    if |raws| > 0 {
      var n := |raws| - 1;
      UnknownModeNeverDefined(c0, raws[..n], secs[..n]);
      ReadPreservesValid(ReadMany(c0, raws[..n], secs[..n]), raws[n], secs[n]);
    }
  }

  /** The collector after reading `raws[k]` with `secs[k]` for each `k` in turn. */
  function ReadMany(c: CollectorState, raws: seq<real>, secs: seq<real>): (c': CollectorState)
    requires |raws| == |secs|
    ensures c'.mode == c.mode && c'.name == c.name && c'.shortname == c.shortname
    ensures |raws| > 0 ==> c'.lastMeasured == Some(raws[|raws| - 1])
    decreases |raws|
  {
    if |raws| == 0 then c
    else
      var n := |raws| - 1;
      Read(ReadMany(c, raws[..n], secs[..n]), raws[n], secs[n])
  }

  /** What `niceresult` reports: "NA" for an undefined result, otherwise the
      result converted to the declared data type. */
  datatype Nice = NA | Shown(t: Typed)

  /** `niceresult`. */
  function NiceResult(c: CollectorState): (n: Nice)
    ensures n == NA <==> c.result.None?
    ensures n.Shown? ==> (n.t.NoValue? <==> !KnownDataType(c.dataType))
    ensures n.Shown? && KnownDataType(c.dataType) && Integral(c.result.value) ==> Denote(n.t) == c.result
  {
    if c.result.None? then NA
    else
      ConvertLossless(c.dataType, c.result.value);
      Shown(Convert(c.dataType, c.result.value))
  }
}

=== FILE: config.dfy ===
/** The parts of `loadconfig` that shape the model: conditional interval
    rules with their defaults, the run-mode whitelist, collectors built from
    the inputs (default mode "passthroug"), and type resolution through the
    registry in the order the loader performs it. The configuration arrives
    already parsed; absent keys are `None`. */
module Config {
  import opened Values
  import Scheduler
  import Collector
  import Registry

  /** One entry of `cond_intervals` as written in the configuration. */
  datatype CondIntervalEntry = CondIntervalEntry(
    name: Option<string>,
    dayOfWeek: Option<string>,
    fromH: Option<int>,
    untilH: Option<int>,
    priority: Option<int>,
    interval: Option<real>)

  /** Errors that stop the loader: a missing required key, a run mode outside
      the whitelist, or a type the registry cannot resolve. */
  datatype ConfigError =
    | MissingKey(key: string)
    | UnknownRunMode(mode: string)
    | Unresolvable(cause: Registry.LoadError)

  function LowerChar(c: char): char {
    if 'A' <= c <= 'Z' then (c as int + 32) as char else c
  }

  /** `str.lower()` on ASCII text. */
  function Lower(s: string): (r: string)
    ensures |r| == |s|
    ensures forall i :: 0 <= i < |s| ==> r[i] == LowerChar(s[i])
    ensures forall i :: 0 <= i < |r| ==> !('A' <= r[i] <= 'Z')
  {
    if |s| == 0 then "" else [LowerChar(s[0])] + Lower(s[1..])
  }

  /** The stored rule for an entry: name "", no day or hour bounds and
      priority 1 unless given; the day is lower-cased; the interval is
      required. */
  function LoadRule(e: CondIntervalEntry): (r: Result<Scheduler.Rule, ConfigError>)
    ensures r.Failure? <==> e.interval.None?
    ensures r.Failure? ==> r.error == MissingKey("interval")
    ensures r.Success? ==>
      && r.value.name == (if e.name.Some? then e.name.value else "")
      && r.value.dow == (if e.dayOfWeek.Some? then Some(Lower(e.dayOfWeek.value)) else None)
      && r.value.fromHour == e.fromH
      && r.value.untilHour == e.untilH
      && r.value.priority == (if e.priority.Some? then e.priority.value else 1)
      && r.value.interval == e.interval.value
  {
    var cin := Scheduler.Rule("", None, None, None, 1, 0.0);
    var cin := if e.name.Some? then cin.(name := e.name.value) else cin;
    var cin := if e.dayOfWeek.Some? then cin.(dow := Some(Lower(e.dayOfWeek.value))) else cin;
    var cin := if e.fromH.Some? then cin.(fromHour := Some(e.fromH.value)) else cin;
    var cin := if e.untilH.Some? then cin.(untilHour := Some(e.untilH.value)) else cin;
    var cin := if e.priority.Some? then cin.(priority := e.priority.value) else cin;
    if e.interval.Some? then Success(cin.(interval := e.interval.value))
    else Failure(MissingKey("interval"))
  }

  /** A rule written without day or hour bounds applies at every hour of
      every day. */
  lemma UnboundedRuleAlwaysMatches(e: CondIntervalEntry, hour: int, weekday: string)
    requires e.dayOfWeek.None? && e.fromH.None? && e.untilH.None? && e.interval.Some?
    ensures Scheduler.Matches(LoadRule(e).value, hour, weekday)
  {
  }

  /** The day is compared case-insensitively: a rule applies on a lower-case
      weekday exactly when its day, lower-cased, is that weekday. */
  lemma DayMatchIgnoresCase(e: CondIntervalEntry, hour: int, weekday: string)
    requires e.dayOfWeek.Some? && e.fromH.None? && e.untilH.None? && e.interval.Some?
    ensures Scheduler.Matches(LoadRule(e).value, hour, weekday) <==> Lower(e.dayOfWeek.value) == weekday
  {
  }

  /** `cond_intervals` in order; the first entry without an interval aborts. */
  function LoadRules(entries: seq<CondIntervalEntry>): (r: Result<seq<Scheduler.Rule>, ConfigError>)
    ensures r.Success? <==> forall i :: 0 <= i < |entries| ==> entries[i].interval.Some?
    ensures r.Success? ==>
      && |r.value| == |entries|
      && forall i :: 0 <= i < |entries| ==> Success(r.value[i]) == LoadRule(entries[i])
    decreases |entries|
  {
    if |entries| == 0 then Success([])
    else
      var n := |entries| - 1;
      var rules :- LoadRules(entries[..n]);
      var rule :- LoadRule(entries[n]);
      Success(rules + [rule])
  }

  /** The three run modes `main` knows. */
  datatype RunMode = Once | Twice | Loop

  function RunModeName(m: RunMode): string {
    match m
    case Once => "once"
    case Twice => "twice"
    case Loop => "loop"
  }

  /** The run-mode whitelist check. */
  function ParseRunMode(s: string): (r: Result<RunMode, ConfigError>)
    ensures r.Success? <==> s == "once" || s == "twice" || s == "loop"
    ensures r.Success? ==> RunModeName(r.value) == s
    ensures r.Failure? ==> r.error == UnknownRunMode(s)
    ensures forall m: RunMode :: RunModeName(m) == s ==> r == Success(m)
  {
    if s == "once" then Success(Once)
    else if s == "twice" then Success(Twice)
    else if s == "loop" then Success(Loop)
    else Failure(UnknownRunMode(s))
  }

  /** The `collector` section. */
  datatype CollectorSection = CollectorSection(
    interval: Option<int>,
    runmode: Option<string>,
    condIntervals: seq<CondIntervalEntry>)

  /** What the `collector` section sets on the controller. */
  datatype Schedule = Schedule(measureInterval: int, runmode: RunMode, rules: seq<Scheduler.Rule>)

  /** The controller's defaults: a 5-second interval, run mode "once", no rules. */
  const DefaultSchedule := Schedule(5, Once, [])

  /** Load the `collector` section: the interval overrides the default, the
      run mode is required and whitelisted before any rule is read. */
  function LoadSchedule(section: Option<CollectorSection>): (r: Result<Schedule, ConfigError>)
    ensures section.None? ==> r == Success(DefaultSchedule)
    ensures section.Some? && section.value.runmode.None? ==> r == Failure(MissingKey("runmode"))
    ensures section.Some? && section.value.runmode.Some? && ParseRunMode(section.value.runmode.value).Failure? ==>
      r == Failure(UnknownRunMode(section.value.runmode.value))
    ensures r.Success? && section.Some? ==>
      && RunModeName(r.value.runmode) == section.value.runmode.value
      && r.value.measureInterval == (if section.value.interval.Some? then section.value.interval.value else 5)
      && Success(r.value.rules) == LoadRules(section.value.condIntervals)
    // a whitelisted run mode with loadable rules loads; unloadable rules fail the section
    ensures section.Some? && section.value.runmode.Some? && ParseRunMode(section.value.runmode.value).Success? ==>
      if LoadRules(section.value.condIntervals).Success? then r.Success?
      else r == Failure(LoadRules(section.value.condIntervals).error)
  {
    match section
    case None => Success(DefaultSchedule)
    case Some(sec) =>
      var interval := if sec.interval.Some? then sec.interval.value else DefaultSchedule.measureInterval;
      if sec.runmode.None? then Failure(MissingKey("runmode"))
      else
        var mode :- ParseRunMode(sec.runmode.value);
        var rules :- LoadRules(sec.condIntervals);
        Success(Schedule(interval, mode, rules))
  }

  /** One entry of `inputs`: `agentName` is `None` when the entry has no
      `agent` or the agent has no `agentname`. */
  datatype InputEntry = InputEntry(
    name: string,
    shortname: string,
    dataType: string,
    calcmode: Option<string>,
    agentName: Option<string>)

  /** The mode an input asks for: its `calcmode`, or "passthroug". */
  function InputMode(e: InputEntry): (m: string)
    ensures e.calcmode.Some? ==> m == e.calcmode.value
    // the default is a mode the engine recognises
    ensures e.calcmode.None? ==> Collector.ParseMode(m) == Some(Collector.Passthrough)
  {
    if e.calcmode.Some? then e.calcmode.value else Collector.PassthroughName
  }

  /** A collector class whose constructor overrides the mode it is given:
      the two built-in network counters, and the plugin classes `Env`
      records a forced mode for. */
  predicate ForcesMode(env: Registry.Env, cls: Registry.ClassRef) {
    match cls
    case BuiltinClass(symbol) => symbol == "Collector_BandwidthBySys" || symbol == "Collector_NetworkPacketsBySys"
    case PluginClass(_, symbol) => symbol in env.forcedModes
  }

  /** The mode a collector constructor keeps. */
  function ConstructedMode(env: Registry.Env, cls: Registry.ClassRef, mode: string): (r: string)
    ensures !ForcesMode(env, cls) ==> r == mode
    ensures ForcesMode(env, cls) && cls.BuiltinClass? ==> r == Collector.IncrementInSecName
    ensures ForcesMode(env, cls) && cls.PluginClass? ==> r == env.forcedModes[cls.symbol]
  {
    match cls
    case BuiltinClass(symbol) =>
      if symbol == "Collector_BandwidthBySys" || symbol == "Collector_NetworkPacketsBySys"
      then Collector.IncrementInSecName
      else mode
    case PluginClass(_, symbol) =>
      if symbol in env.forcedModes then env.forcedModes[symbol] else mode
  }

  /** The mode the collector built for `e` computes, read off the
      environment alone: the per-second increment when the agent is one of
      the two built-in network counters, the forced mode of a plugin class
      that forces one, the requested mode otherwise. */
  function ExpectedMode(env: Registry.Env, e: InputEntry): string
    requires e.agentName.Some?
  {
    var agent := e.agentName.value;
    var key := Registry.ClassKey(agent, "coll");
    if key in env.globals then
      if agent == "BandwidthBySys" || agent == "NetworkPacketsBySys" then Collector.IncrementInSecName
      else InputMode(e)
    else if key in env.forcedModes then env.forcedModes[key]
    else InputMode(e)
  }

  /** With a consistent cache, the constructor of whatever class an agent
      resolves to keeps exactly the expected mode. */
  lemma ConstructedModeIsExpected(env: Registry.Env, cache: map<string, Registry.ClassRef>, e: InputEntry)
    requires e.agentName.Some?
    ensures var r := Registry.GetClass(env, cache, e.agentName.value, "coll");
      Registry.CacheConsistent(env, cache) && r.Success? ==>
        ConstructedMode(env, r.value.cls, InputMode(e)) == ExpectedMode(env, e)
  {
    var agent := e.agentName.value;
    var r := Registry.GetClass(env, cache, agent, "coll");
    if Registry.CacheConsistent(env, cache) && r.Success? {
      var key := Registry.ClassKey(agent, "coll");
      if key in env.globals {
        BuiltinNetworkCounter(agent, key);
      } else {
        Registry.GetClassKeepsCacheConsistent(env, cache, agent, "coll");
        assert r.value.cls == Registry.PluginClass(r.value.cls.file, key);
      }
    }
  }

  /** The prefixed class name of an agent names a network-counter built-in
      exactly when the agent is that collector's type name. */
  lemma BuiltinNetworkCounter(agent: string, key: string)
    requires key == Registry.ClassKey(agent, "coll")
    ensures key == "Collector_BandwidthBySys" <==> agent == "BandwidthBySys"
    ensures key == "Collector_NetworkPacketsBySys" <==> agent == "NetworkPacketsBySys"
  {
    assert Registry.ClassPrefix("coll") == "Collector_";
    assert "Collector_BandwidthBySys" == "Collector_" + "BandwidthBySys";
    assert "Collector_NetworkPacketsBySys" == "Collector_" + "NetworkPacketsBySys";
    Registry.PrefixCancels("Collector_", agent, "BandwidthBySys");
    Registry.PrefixCancels("Collector_", agent, "NetworkPacketsBySys");
  }

  /** The inputs the loader builds a collector for, in order. */
  function WithAgent(entries: seq<InputEntry>): (r: seq<InputEntry>)
    ensures |r| <= |entries|
    ensures forall e :: e in r ==> e in entries && e.agentName.Some?
    ensures forall i :: 0 <= i < |entries| && entries[i].agentName.Some? ==> entries[i] in r
    decreases |entries|
  {
    if |entries| == 0 then []
    else
      var n := |entries| - 1;
      WithAgent(entries[..n]) + (if entries[n].agentName.Some? then [entries[n]] else [])
  }

  /** An input contributes itself exactly when it names an agent. */
  lemma WithAgentSingle(e: InputEntry)
    ensures WithAgent([e]) == if e.agentName.Some? then [e] else []
  {
    assert [e][..0] == [];
  }

  /** The filter distributes over concatenation: inputs keep their order,
      and each one with an agent appears once. */
  lemma {:induction false} WithAgentAppend(a: seq<InputEntry>, b: seq<InputEntry>)
    ensures WithAgent(a + b) == WithAgent(a) + WithAgent(b)
    decreases |b|
  {
    if |b| == 0 {
      assert a + b == a;
    } else {
      var n := |b| - 1;
      assert (a + b)[..|a + b| - 1] == a + b[..n];
      WithAgentAppend(a, b[..n]);
    }
  }

  /** A collector as the loader builds it for an input: the input's labels
      and data type, and nothing measured yet. */
  predicate BuiltFrom(c: Collector.CollectorState, e: InputEntry) {
    && c.name == e.name && c.shortname == e.shortname && c.dataType == e.dataType
    && c.measured.None? && c.lastMeasured.None? && c.result.None?
  }

  /** Every agent the inputs name resolves in category "coll". */
  predicate AgentsResolvable(env: Registry.Env, cache: map<string, Registry.ClassRef>, entries: seq<InputEntry>) {
    forall i :: 0 <= i < |entries| && entries[i].agentName.Some? ==>
      Registry.Resolvable(env, cache, entries[i].agentName.value, "coll")
  }

  /** Every key `c'` holds beyond `cache` is the "coll" key of an agent the
      inputs name. */
  ghost predicate AgentKeysOnly(cache: map<string, Registry.ClassRef>, c': map<string, Registry.ClassRef>, entries: seq<InputEntry>) {
    forall k :: k in c' && k !in cache ==>
      exists e :: e in WithAgent(entries) && e.agentName.Some? && k == Registry.ClassKey(e.agentName.value, "coll")
  }

  /** The keys added while loading the last input are its agent's, if any. */
  lemma AgentKeysGrow(cache: map<string, Registry.ClassRef>, c1: map<string, Registry.ClassRef>, c2: map<string, Registry.ClassRef>, entries: seq<InputEntry>)
    requires |entries| > 0 && AgentKeysOnly(cache, c1, entries[..|entries| - 1])
    requires entries[|entries| - 1].agentName.None? ==> c2 == c1
    requires entries[|entries| - 1].agentName.Some? ==>
      forall k :: k in c2 && k !in c1 ==> k == Registry.ClassKey(entries[|entries| - 1].agentName.value, "coll")
    ensures AgentKeysOnly(cache, c2, entries)
  {
    var n := |entries| - 1;
    assert WithAgent(entries) == WithAgent(entries[..n]) + (if entries[n].agentName.Some? then [entries[n]] else []);
    forall k | k in c2 && k !in cache
      ensures exists e :: e in WithAgent(entries) && e.agentName.Some? && k == Registry.ClassKey(e.agentName.value, "coll")
    {
      if k !in c1 {
        assert entries[n] in WithAgent(entries);
      } else {
        var e :| e in WithAgent(entries[..n]) && e.agentName.Some? && k == Registry.ClassKey(e.agentName.value, "coll");
        assert e in WithAgent(entries);
      }
    }
  }

  /** Appending the collector of the last input keeps every collector
      lined up with the input it was built from, and with its expected mode. */
  lemma CollectorsGrow(env: Registry.Env, cs: seq<Collector.CollectorState>, c: Collector.CollectorState, entries: seq<InputEntry>)
    requires |entries| > 0 && entries[|entries| - 1].agentName.Some?
    requires |cs| == |WithAgent(entries[..|entries| - 1])|
    ensures |cs + [c]| == |WithAgent(entries)|
    ensures (forall i :: 0 <= i < |cs| ==> BuiltFrom(cs[i], WithAgent(entries[..|entries| - 1])[i])) && BuiltFrom(c, entries[|entries| - 1]) ==>
      forall i :: 0 <= i < |cs + [c]| ==> BuiltFrom((cs + [c])[i], WithAgent(entries)[i])
    ensures (forall i :: 0 <= i < |cs| ==> cs[i].mode == ExpectedMode(env, WithAgent(entries[..|entries| - 1])[i])) && c.mode == ExpectedMode(env, entries[|entries| - 1]) ==>
      forall i :: 0 <= i < |cs + [c]| ==> (cs + [c])[i].mode == ExpectedMode(env, WithAgent(entries)[i])
  {
    var n := |entries| - 1;
    assert WithAgent(entries) == WithAgent(entries[..n]) + [entries[n]];
  }

  /** A registry error surfaces as a load error. */
  function Raise<T>(x: Result<T, Registry.LoadError>): Result<T, ConfigError> {
    match x
    case Success(v) => Success(v)
    case Failure(e) => Failure(Unresolvable(e))
  }

  /** Build the collectors of `inputs`, resolving each agent in category
      "coll"; an entry without an agent is skipped, an unresolvable agent
      aborts. */
  function LoadInputs(env: Registry.Env, cache: map<string, Registry.ClassRef>, entries: seq<InputEntry>)
    : (r: Result<(seq<Collector.CollectorState>, map<string, Registry.ClassRef>), ConfigError>)
    ensures r.Success? ==> |r.value.0| == |WithAgent(entries)| && Registry.Extends(cache, r.value.1)
    ensures r.Success? ==> forall i :: 0 <= i < |r.value.0| ==> BuiltFrom(r.value.0[i], WithAgent(entries)[i])
    ensures r.Success? && Registry.CacheConsistent(env, cache) ==>
      && Registry.CacheConsistent(env, r.value.1)
      && forall i :: 0 <= i < |r.value.0| ==> r.value.0[i].mode == ExpectedMode(env, WithAgent(entries)[i])
    // the load succeeds exactly when every agent resolves against the initial cache
    ensures AgentsResolvable(env, cache, entries) ==> r.Success?
    ensures r.Success? ==> AgentsResolvable(env, cache, entries)
    // what it adds to the cache was loaded from plugin files, under the keys of the inputs' agents
    ensures r.Success? ==> Registry.LoadedByPlugins(env, cache, r.value.1, "coll")
    ensures r.Success? ==> AgentKeysOnly(cache, r.value.1, entries)
    decreases |entries|
  {
    if |entries| == 0 then Success(([], cache))
    else
      var n := |entries| - 1;
      var e := entries[n];
      var prev :- LoadInputs(env, cache, entries[..n]);
      if e.agentName.None? then
        AgentKeysGrow(cache, prev.1, prev.1, entries);
        Success(prev)
      else
        var res :- Raise(Registry.GetClass(env, prev.1, e.agentName.value, "coll"));
        Registry.GetClassKeepsCacheConsistent(env, prev.1, e.agentName.value, "coll");
        Registry.ResolvableBefore(env, cache, prev.1, e.agentName.value, "coll", "coll");
        Registry.GetClassLoadsFromPlugins(env, prev.1, e.agentName.value, "coll");
        Registry.LoadedByPluginsTrans(env, cache, prev.1, res.cache, "coll");
        AgentKeysGrow(cache, prev.1, res.cache, entries);
        ConstructedModeIsExpected(env, prev.1, e);
        var c := Collector.New(e.name, e.shortname, e.dataType, ConstructedMode(env, res.cls, InputMode(e)));
        CollectorsGrow(env, prev.0, c, entries);
        Success((prev.0 + [c], res.cache))
  }

  /** An input without `calcmode` served by an agent that keeps its mode
      computes "passthroug". */
  lemma DefaultModeIsPassthrough(env: Registry.Env, e: InputEntry, cls: Registry.ClassRef)
    requires e.calcmode.None? && !ForcesMode(env, cls)
    ensures ConstructedMode(env, cls, InputMode(e)) == Collector.PassthroughName
    ensures Collector.ParseMode(ConstructedMode(env, cls, InputMode(e))) == Some(Collector.Passthrough)
  {
  }

  /** The configuration as parsed: the `type` of each database and output,
      the `collector` section and the inputs. */
  datatype ConfigFile = ConfigFile(
    databaseTypes: seq<string>,
    collector: Option<CollectorSection>,
    inputs: seq<InputEntry>,
    outputTypes: seq<string>)

  /** Everything the loader hands the controller. */
  datatype Loaded = Loaded(
    schedule: Schedule,
    collectors: seq<Collector.CollectorState>,
    publishers: seq<Registry.ClassRef>,
    cache: map<string, Registry.ClassRef>)

  /** The resolution requests for a list of type names in one category. */
  function Requests(types: seq<string>, category: string): (r: seq<(string, string)>)
    ensures |r| == |types| && forall i :: 0 <= i < |types| ==> r[i] == (types[i], category)
  {
    seq(|types|, i requires 0 <= i < |types| => (types[i], category))
  }

  /** Every type name of `types` resolves in `category`. */
  predicate TypesResolvable(env: Registry.Env, cache: map<string, Registry.ClassRef>, types: seq<string>, category: string) {
    forall i :: 0 <= i < |types| ==> Registry.Resolvable(env, cache, types[i], category)
  }

  /** Every type name the configuration holds resolves against `cache`. */
  predicate AllResolvable(env: Registry.Env, cache: map<string, Registry.ClassRef>, cfg: ConfigFile) {
    && TypesResolvable(env, cache, cfg.databaseTypes, "database")
    && AgentsResolvable(env, cache, cfg.inputs)
    && TypesResolvable(env, cache, cfg.outputTypes, "pub")
  }

  /** Resolving a list of types in one category succeeds exactly when each
      resolves against the initial cache. */
  lemma ResolveTypes(env: Registry.Env, cache: map<string, Registry.ClassRef>, types: seq<string>, category: string)
    ensures Registry.ResolveAll(env, cache, Requests(types, category)).Success? <==> TypesResolvable(env, cache, types, category)
    ensures Registry.ResolveAll(env, cache, Requests(types, category)).Success? ==>
      Registry.LoadedByPlugins(env, cache, Registry.ResolveAll(env, cache, Requests(types, category)).value.1, category)
  {
    Registry.ResolveAllOneCategory(env, cache, Requests(types, category), category);
  }

  /** Names of a category with a prefix that resolve after plugin loads in
      another such category (or the same one) resolved before them. */
  lemma TypesResolvableBefore(env: Registry.Env, c: map<string, Registry.ClassRef>, c': map<string, Registry.ClassRef>, types: seq<string>, category: string, grown: string)
    requires Registry.LoadedByPlugins(env, c, c', grown)
    requires Registry.ClassPrefix(category) != "" && Registry.ClassPrefix(grown) != ""
    requires TypesResolvable(env, c', types, category)
    ensures TypesResolvable(env, c, types, category)
  {
    forall i | 0 <= i < |types|
      ensures Registry.Resolvable(env, c, types[i], category)
    {
      Registry.ResolvableBefore(env, c, c', types[i], category, grown);
    }
  }

  lemma AgentsResolvableBefore(env: Registry.Env, c: map<string, Registry.ClassRef>, c': map<string, Registry.ClassRef>, entries: seq<InputEntry>, grown: string)
    requires Registry.LoadedByPlugins(env, c, c', grown) && Registry.ClassPrefix(grown) != ""
    requires AgentsResolvable(env, c', entries)
    ensures AgentsResolvable(env, c, entries)
  {
    forall i | 0 <= i < |entries| && entries[i].agentName.Some?
      ensures Registry.Resolvable(env, c, entries[i].agentName.value, "coll")
    {
      Registry.ResolvableBefore(env, c, c', entries[i].agentName.value, "coll", grown);
    }
  }

  lemma AllResolvableGrows(env: Registry.Env, c: map<string, Registry.ClassRef>, c': map<string, Registry.ClassRef>, cfg: ConfigFile)
    requires Registry.Extends(c, c')
    ensures AllResolvable(env, c, cfg) ==> AllResolvable(env, c', cfg)
  {
  }

  /** The types of a configuration whose databases resolved into `c1` and
      whose agents into `c2` resolved against the initial cache. */
  lemma ResolvedBeforeLoading(env: Registry.Env, cache: map<string, Registry.ClassRef>,
                              c1: map<string, Registry.ClassRef>, c2: map<string, Registry.ClassRef>, cfg: ConfigFile)
    requires Registry.ResolveAll(env, cache, Requests(cfg.databaseTypes, "database")).Success?
    requires c1 == Registry.ResolveAll(env, cache, Requests(cfg.databaseTypes, "database")).value.1
    requires LoadInputs(env, c1, cfg.inputs).Success? && c2 == LoadInputs(env, c1, cfg.inputs).value.1
    requires Registry.ResolveAll(env, c2, Requests(cfg.outputTypes, "pub")).Success?
    ensures AllResolvable(env, cache, cfg)
  {
    ResolveTypes(env, cache, cfg.databaseTypes, "database");
    AgentsResolvableBefore(env, cache, c1, cfg.inputs, "database");
    ResolveTypes(env, c2, cfg.outputTypes, "pub");
    TypesResolvableBefore(env, c1, c2, cfg.outputTypes, "pub", "coll");
    TypesResolvableBefore(env, cache, c1, cfg.outputTypes, "pub", "database");
  }

  /** `loadconfig`: databases, then the collector section, then inputs, then
      outputs; the first error aborts the whole load. */
  function LoadConfig(env: Registry.Env, cache: map<string, Registry.ClassRef>, cfg: ConfigFile): (r: Result<Loaded, ConfigError>)
    ensures r.Success? ==> Success(r.value.schedule) == LoadSchedule(cfg.collector)
    ensures r.Success? ==> |r.value.collectors| == |WithAgent(cfg.inputs)| && |r.value.publishers| == |cfg.outputTypes|
    ensures r.Success? ==> forall i :: 0 <= i < |r.value.collectors| ==> BuiltFrom(r.value.collectors[i], WithAgent(cfg.inputs)[i])
    ensures r.Success? && Registry.CacheConsistent(env, cache) ==>
      && Registry.CacheConsistent(env, r.value.cache)
      && (forall i :: 0 <= i < |r.value.collectors| ==>
            r.value.collectors[i].mode == ExpectedMode(env, WithAgent(cfg.inputs)[i]))
      && forall i :: 0 <= i < |cfg.outputTypes| ==>
           r.value.publishers[i].symbol == "Publisher_" + cfg.outputTypes[i]
    // a configuration whose types all resolve and whose collector section is good loads,
    // and one that loads has only types that resolve
    ensures AllResolvable(env, cache, cfg) && LoadSchedule(cfg.collector).Success? ==> r.Success?
    ensures r.Success? ==> AllResolvable(env, cache, cfg)
    ensures LoadSchedule(cfg.collector).Failure? && Registry.ResolveAll(env, cache, Requests(cfg.databaseTypes, "database")).Success? ==>
      r == Failure(LoadSchedule(cfg.collector).error)
  {
    var databases :- Raise(Registry.ResolveAll(env, cache, Requests(cfg.databaseTypes, "database")));
    var schedule :- LoadSchedule(cfg.collector);
    var inputs :- LoadInputs(env, databases.1, cfg.inputs);
    var outputs :- Raise(Registry.ResolveAll(env, inputs.1, Requests(cfg.outputTypes, "pub")));
    AllResolvableGrows(env, cache, databases.1, cfg);
    AllResolvableGrows(env, databases.1, inputs.1, cfg);
    ResolvedBeforeLoading(env, cache, databases.1, inputs.1, cfg);
    Success(Loaded(schedule, inputs.0, outputs.0, outputs.1))
  }

}

=== FILE: controller.dfy ===
/** The controller (`Controller` and the run-mode dispatch of `main`):
    sampling passes over all collectors, the wait that selects the next
    interval, and the publications each run mode produces. Raw samples and
    the clock are inputs: `samples[k][i]` is what collector `i` reads on pass
    `k`, and `moments[k]` the hour and weekday of the `k`-th wait. Publishing
    is represented by the metric list handed to the publishers. */
module Controller {
  import opened Values
  import Collector
  import Scheduler
  import Config

  /** The hour and lower-case weekday abbreviation the clock reports. */
  datatype Moment = Moment(hour: int, weekday: string)

  datatype ControllerState = ControllerState(
    measureInterval: int,
    lastWait: real,
    runmode: Config.RunMode,
    collectors: seq<Collector.CollectorState>,
    rules: seq<Scheduler.Rule>)

  /** The controller after loading: no wait has happened, so the first pass
      sees 0 elapsed seconds. */
  function Start(loaded: Config.Loaded): (c: ControllerState)
    ensures c.lastWait == 0.0
    ensures c.collectors == loaded.collectors && c.rules == loaded.schedule.rules
    // the configured baseline interval and run mode reach the controller
    ensures c.measureInterval == loaded.schedule.measureInterval && c.runmode == loaded.schedule.runmode
  {
    ControllerState(loaded.schedule.measureInterval, 0.0, loaded.schedule.runmode, loaded.collectors, loaded.schedule.rules)
  }

  /** `read_all`: every collector reads its own sample with the same elapsed
      seconds; collectors do not influence one another. */
  function ReadAll(ms: seq<Collector.CollectorState>, raws: seq<real>, sec: real): (r: seq<Collector.CollectorState>)
    requires |raws| == |ms|
    ensures |r| == |ms|
    ensures forall i :: 0 <= i < |ms| ==> r[i] == Collector.Read(ms[i], raws[i], sec)
    decreases |ms|
  {
    if |ms| == 0 then []
    else
      var n := |ms| - 1;
      ReadAll(ms[..n], raws[..n], sec) + [Collector.Read(ms[n], raws[n], sec)]
  }

  /** `read_all` as written when acquisitions can fail: `raws[i]` is `None`
      when collector `i`'s `read_low` raises (a missing file, a failed
      query, unparsable text). Nothing catches the exception, so the pass
      stops at the first such collector and the exception, identified here
      by that collector's index, leaves `main` in every run mode. */
  function ReadAllOrRaise(ms: seq<Collector.CollectorState>, raws: seq<Option<real>>, sec: real)
    : (r: Result<seq<Collector.CollectorState>, nat>)
    requires |raws| == |ms|
    ensures r.Failure? ==> r.error < |ms| && raws[r.error].None? && forall i :: 0 <= i < r.error ==> raws[i].Some?
    ensures r.Success? ==> |r.value| == |ms| && forall i :: 0 <= i < |ms| ==>
      raws[i].Some? && r.value[i] == Collector.Read(ms[i], raws[i].value, sec)
    decreases |ms|
  {
    if |ms| == 0 then Success([])
    else if raws[0].None? then Failure(0)
    else
      match ReadAllOrRaise(ms[1..], raws[1..], sec)
      case Failure(i) => Failure(i + 1)
      case Success(rest) => Success([Collector.Read(ms[0], raws[0].value, sec)] + rest)
  }

  /** Two collectors, the second of which raises: the pass as written
      yields no collector at all, although the first one read its sample. */
  lemma RaisingSourceSilencesOthers(a: Collector.CollectorState, b: Collector.CollectorState, x: real, sec: real)
    ensures ReadAllOrRaise([a, b], [Some(x), None], sec) == Failure(1)
    ensures ReadAllIsolated([a, b], [Some(x), None], sec)[0] == Collector.Read(a, x, sec)
  {
    assert [a, b][1..] == [b];
    assert [Some(x), None][1..] == [None];
  }

  /** `read_all` with each collector isolated from the others' failures: a
      collector whose acquisition fails reports an undefined result and, as
      its sample is undefined, has no previous sample for its next read;
      every other collector reads as usual. */
  function ReadAllIsolated(ms: seq<Collector.CollectorState>, raws: seq<Option<real>>, sec: real)
    : (r: seq<Collector.CollectorState>)
    requires |raws| == |ms|
    ensures |r| == |ms|
    ensures forall i :: 0 <= i < |ms| && raws[i].Some? ==> r[i] == Collector.Read(ms[i], raws[i].value, sec)
    ensures forall i :: 0 <= i < |ms| && raws[i].None? ==>
      r[i] == ms[i].(measured := None, lastMeasured := None, result := None)
    decreases |ms|
  {
    if |ms| == 0 then []
    else
      var n := |ms| - 1;
      var last := if raws[n].Some? then Collector.Read(ms[n], raws[n].value, sec)
                  else ms[n].(measured := None, lastMeasured := None, result := None);
      ReadAllIsolated(ms[..n], raws[..n], sec) + [last]
  }

  /** After an isolated pass in which its acquisition failed, a collector
      whose mode needs history reports an undefined result on its next read,
      so a rate never spans the failed pass. */
  lemma FailureRestartsHistory(ms: seq<Collector.CollectorState>, raws: seq<Option<real>>, sec: real, i: nat, x: real, sec': real)
    requires |raws| == |ms| && i < |ms| && raws[i].None? && !Collector.UnitMode(ms[i].mode)
    ensures Collector.Read(ReadAllIsolated(ms, raws, sec)[i], x, sec').result.None?
  {
  }

  /** When no acquisition fails, the pass as written and the isolated pass
      both coincide with `ReadAll`. */
  lemma NoFailureAgrees(ms: seq<Collector.CollectorState>, raws: seq<Option<real>>, xs: seq<real>, sec: real)
    requires |raws| == |ms| == |xs| && forall i :: 0 <= i < |ms| ==> raws[i] == Some(xs[i])
    ensures ReadAllOrRaise(ms, raws, sec) == Success(ReadAll(ms, xs, sec))
    ensures ReadAllIsolated(ms, raws, sec) == ReadAll(ms, xs, sec)
  {
    var r := ReadAllOrRaise(ms, raws, sec);
    if r.Success? {
      assert r.value == ReadAll(ms, xs, sec);
    }
  }

  /** One sampling pass with the recorded elapsed seconds. */
  function Pass(c: ControllerState, raws: seq<real>): (c': ControllerState)
    requires |raws| == |c.collectors|
    ensures c' == c.(collectors := c'.collectors)
    ensures |c'.collectors| == |c.collectors|
  {
    c.(collectors := ReadAll(c.collectors, raws, c.lastWait))
  }

  /** The interval `wait` selects at `now` from the baseline and the rules. */
  function IntervalAt(c: ControllerState, now: Moment): real {
    Scheduler.SelectInterval(c.measureInterval as real, c.rules, now.hour, now.weekday)
  }

  /** `wait`, without the sleep: record the selected interval. */
  function Wait(c: ControllerState, now: Moment): (c': ControllerState)
    ensures c' == c.(lastWait := c'.lastWait)
  {
    c.(lastWait := IntervalAt(c, now))
  }

  /** The publications of a run and the controller it leaves behind. */
  datatype Trace = Trace(published: seq<seq<Collector.CollectorState>>, final: ControllerState)

  predicate SamplesFit(c: ControllerState, samples: seq<seq<real>>) {
    forall k :: 0 <= k < |samples| ==> |samples[k]| == |c.collectors|
  }

  /** "once": one pass, one publication. */
  function RunOnce(c: ControllerState, raws: seq<real>): (t: Trace)
    requires |raws| == |c.collectors|
    // one publication, of the collectors the single pass leaves, with no wait recorded
    ensures |t.published| == 1 && t.published[0] == t.final.collectors && |t.final.collectors| == |c.collectors|
    ensures t.final.lastWait == c.lastWait
    ensures forall i :: 0 <= i < |c.collectors| ==> t.published[0][i] == Collector.Read(c.collectors[i], raws[i], c.lastWait)
  {
    var c1 := Pass(c, raws);
    Trace([c1.collectors], c1)
  }

  /** "twice": a pass, a wait, a second pass, and one publication that shows
      only the second pass. */
  function RunTwice(c: ControllerState, raws0: seq<real>, raws1: seq<real>, now: Moment): (t: Trace)
    requires |raws0| == |c.collectors| && |raws1| == |c.collectors|
    // one publication, showing each collector read twice: first with the
    // recorded elapsed seconds, then with the interval selected in between
    ensures |t.published| == 1 && t.published[0] == t.final.collectors && |t.final.collectors| == |c.collectors|
    ensures t.final.lastWait == IntervalAt(c, now)
    ensures forall i :: 0 <= i < |c.collectors| ==>
      t.published[0][i] == Collector.Read(Collector.Read(c.collectors[i], raws0[i], c.lastWait), raws1[i], IntervalAt(c, now))
  {
    var c1 := Pass(c, raws0);
    var c2 := Wait(c1, now);
    var c3 := Pass(c2, raws1);
    Trace([c3.collectors], c3)
  }

  /** "loop", cut off after `n` iterations of pass, publication, wait. */
  function RunLoop(c: ControllerState, samples: seq<seq<real>>, moments: seq<Moment>, n: nat): (t: Trace)
    requires n <= |samples| && n <= |moments| && SamplesFit(c, samples)
    ensures |t.published| == n
    ensures t.final.measureInterval == c.measureInterval && t.final.rules == c.rules && t.final.runmode == c.runmode
    ensures |t.final.collectors| == |c.collectors|
    ensures forall k :: 0 <= k < n ==> |t.published[k]| == |c.collectors|
    ensures n > 0 ==> t.final.collectors == t.published[n - 1]
    ensures n > 0 ==> t.final.lastWait == IntervalAt(c, moments[n - 1])
    decreases n
  {
    if n == 0 then Trace([], c)
    else
      var t := RunLoop(c, samples, moments, n - 1);
      var c1 := Pass(t.final, samples[n - 1]);
      Trace(t.published + [c1.collectors], Wait(c1, moments[n - 1]))
  }

  /** How many samples and moments a run mode consumes; a loop consumes as
      many of each as it runs iterations. */
  predicate Enough(mode: Config.RunMode, samples: seq<seq<real>>, moments: seq<Moment>) {
    match mode
    case Once => |samples| >= 1
    case Twice => |samples| >= 2 && |moments| >= 1
    case Loop => |moments| >= |samples|
  }

  /** The run-mode dispatch of `main`. */
  function Execute(c: ControllerState, samples: seq<seq<real>>, moments: seq<Moment>): (t: Trace)
    requires SamplesFit(c, samples) && Enough(c.runmode, samples, moments)
    ensures c.runmode != Config.Loop ==> |t.published| == 1
    ensures c.runmode == Config.Loop ==> |t.published| == |samples|
    // each run mode runs its own sequence
    ensures c.runmode == Config.Once ==> t == RunOnce(c, samples[0])
    ensures c.runmode == Config.Twice ==> t == RunTwice(c, samples[0], samples[1], moments[0])
    ensures c.runmode == Config.Loop ==> t == RunLoop(c, samples, moments, |samples|)
    // "once" publishes each collector read once with the recorded elapsed
    // seconds; "twice" publishes it read a second time after the wait
    ensures c.runmode == Config.Once ==> forall i :: 0 <= i < |c.collectors| ==>
      t.published[0][i] == Collector.Read(c.collectors[i], samples[0][i], c.lastWait)
    ensures c.runmode == Config.Twice ==> forall i :: 0 <= i < |c.collectors| ==>
      t.published[0][i] == Collector.Read(Collector.Read(c.collectors[i], samples[0][i], c.lastWait), samples[1][i], IntervalAt(c, moments[0]))
  {
    match c.runmode
    case Once => RunOnce(c, samples[0])
    case Twice => RunTwice(c, samples[0], samples[1], moments[0])
    case Loop => RunLoop(c, samples, moments, |samples|)
  }

  /** In run mode "once" from a fresh start, every collector whose mode needs
      history publishes an undefined result, and every unit-mode collector a
      defined one. */
  lemma OnceHasNoRates(c: ControllerState, raws: seq<real>)
    requires |raws| == |c.collectors| && c.lastWait == 0.0
    ensures forall i :: 0 <= i < |c.collectors| ==>
      (RunOnce(c, raws).published[0][i].result.None? <==> !Collector.UnitMode(c.collectors[i].mode))
  {
  }

  /** In run mode "twice" a per-second collector publishes the difference of
      its two samples divided by the interval selected in between. */
  lemma TwiceRate(c: ControllerState, raws0: seq<real>, raws1: seq<real>, now: Moment, i: nat)
    requires |raws0| == |c.collectors| && |raws1| == |c.collectors|
    requires i < |c.collectors| && c.collectors[i].mode == Collector.IncrementInSecName
    ensures var e := IntervalAt(c, now);
      RunTwice(c, raws0, raws1, now).published[0][i].result ==
        (if e == 0.0 then None else Some((raws1[i] - raws0[i]) / e))
  {
    var c1 := Pass(c, raws0);
    assert c1.collectors[i].lastMeasured == Some(raws0[i]);
    assert IntervalAt(Pass(c, raws0), now) == IntervalAt(c, now);
  }

  /** A one-collector "twice" run with a 5-second baseline and no rules: raw
      samples 100 then 150 publish 10. */
  lemma TwiceExample(now: Moment)
    ensures var c := ControllerState(5, 0.0, Config.Twice, [Collector.New("rx", "rx", "float", Collector.IncrementInSecName)], []);
      RunTwice(c, [100.0], [150.0], now).published[0][0].result == Some(10.0)
  {
    var c := ControllerState(5, 0.0, Config.Twice, [Collector.New("rx", "rx", "float", Collector.IncrementInSecName)], []);
    TwiceRate(c, [100.0], [150.0], now, 0);
    assert IntervalAt(c, now) == 5.0;
  }

  /** Each iteration appends one publication. */
  lemma LoopSnoc(c: ControllerState, samples: seq<seq<real>>, moments: seq<Moment>, n: nat)
    requires 0 < n <= |samples| && n <= |moments| && SamplesFit(c, samples)
    ensures RunLoop(c, samples, moments, n).published ==
      RunLoop(c, samples, moments, n - 1).published + [RunLoop(c, samples, moments, n).published[n - 1]]
  {
  }

  lemma PrefixOfSnoc<T>(p: seq<T>, x: T, m: nat)
    requires m <= |p|
    ensures (p + [x])[..m] == p[..m]
  {
  }

  /** A shorter loop publishes a prefix of what a longer one publishes. */
  lemma {:induction false} LoopPrefix(c: ControllerState, samples: seq<seq<real>>, moments: seq<Moment>, n: nat, m: nat)
    requires n <= |samples| && n <= |moments| && SamplesFit(c, samples) && m <= n
    ensures RunLoop(c, samples, moments, m).published == RunLoop(c, samples, moments, n).published[..m]
    decreases n
  {
    var q := RunLoop(c, samples, moments, n).published;
    if m < n {
      LoopPrefix(c, samples, moments, n - 1, m);
      LoopSnoc(c, samples, moments, n);
      PrefixOfSnoc(RunLoop(c, samples, moments, n - 1).published, q[n - 1], m);
    } else {
      assert q[..m] == q;
    }
  }

  /** Pass `k` of a loop reads the collectors the previous pass left, with
      the elapsed seconds the previous wait selected (the recorded value,
      0 after loading, for the first pass). */
  lemma LoopPass(c: ControllerState, samples: seq<seq<real>>, moments: seq<Moment>, n: nat, k: nat)
    requires n <= |samples| && n <= |moments| && SamplesFit(c, samples) && k < n
    ensures var t := RunLoop(c, samples, moments, n);
      t.published[k] == ReadAll(if k == 0 then c.collectors else t.published[k - 1], samples[k],
                                if k == 0 then c.lastWait else IntervalAt(c, moments[k - 1]))
  {
    var all := RunLoop(c, samples, moments, n).published;
    LoopPrefix(c, samples, moments, n, k + 1);
    var before := RunLoop(c, samples, moments, k);
    assert all[k] == RunLoop(c, samples, moments, k + 1).published[k];
    assert all[k] == ReadAll(before.final.collectors, samples[k], before.final.lastWait);
    if k > 0 {
      LoopPrefix(c, samples, moments, n, k);
      assert before.final.collectors == all[k - 1];
    }
  }

  /** From pass 1 on, a per-second collector in a loop publishes the
      difference of its last two samples divided by the interval selected
      between them. */
  lemma LoopRate(c: ControllerState, samples: seq<seq<real>>, moments: seq<Moment>, n: nat, k: nat, i: nat)
    requires n <= |samples| && n <= |moments| && SamplesFit(c, samples)
    requires 0 < k < n && i < |c.collectors| && c.collectors[i].mode == Collector.IncrementInSecName
    ensures var e := IntervalAt(c, moments[k - 1]);
      RunLoop(c, samples, moments, n).published[k][i].result ==
        (if e == 0.0 then None else Some((samples[k][i] - samples[k - 1][i]) / e))
  {
    var all := RunLoop(c, samples, moments, n).published;
    var e := IntervalAt(c, moments[k - 1]);
    LoopCollectorStep(c, samples, moments, n, k, i);
    LoopModePreserved(c, samples, moments, n, k - 1, i);
    var prev := all[k - 1][i];
    var now := all[k][i];
    assert now == Collector.Read(prev, samples[k][i], e);
    Collector.PerSecondStep(prev, samples[k - 1][i], samples[k][i], e);
    assert now.result == (if e == 0.0 then None else Some((samples[k][i] - samples[k - 1][i]) / e));
  }

  /** From pass 1 on, a collector's state is its previous state read with
      its new sample and the interval selected in between. */
  lemma LoopCollectorStep(c: ControllerState, samples: seq<seq<real>>, moments: seq<Moment>, n: nat, k: nat, i: nat)
    requires n <= |samples| && n <= |moments| && SamplesFit(c, samples)
    requires 0 < k < n && i < |c.collectors|
    ensures var all := RunLoop(c, samples, moments, n).published;
      all[k][i] == Collector.Read(all[k - 1][i], samples[k][i], IntervalAt(c, moments[k - 1]))
  {
    LoopPass(c, samples, moments, n, k);
  }

  /** Passes change no collector's labels or mode, and after pass `k` each
      collector remembers its sample of that pass. */
  lemma {:induction false} LoopModePreserved(c: ControllerState, samples: seq<seq<real>>, moments: seq<Moment>, n: nat, k: nat, i: nat)
    requires n <= |samples| && n <= |moments| && SamplesFit(c, samples) && k < n && i < |c.collectors|
    ensures RunLoop(c, samples, moments, n).published[k][i].mode == c.collectors[i].mode
    ensures RunLoop(c, samples, moments, n).published[k][i].lastMeasured == Some(samples[k][i])
    decreases k
  {
    var all := RunLoop(c, samples, moments, n).published;
    if k == 0 {
      LoopPass(c, samples, moments, n, 0);
      assert all[0][i] == Collector.Read(c.collectors[i], samples[0][i], c.lastWait);
    } else {
      LoopCollectorStep(c, samples, moments, n, k, i);
      LoopModePreserved(c, samples, moments, n, k - 1, i);
      assert all[k][i] == Collector.Read(all[k - 1][i], samples[k][i], IntervalAt(c, moments[k - 1]));
    }
  }
}

=== FILE: publisher.dfy ===
/** The keyed publishers: the SQL table publisher builds a parameterised
    insert statement (`Publisher_SqlDatabase.generate_string`) and the JSON
    publisher builds an object (`Publisher_Json.generate_string`, before
    serialisation). Both keep only the metrics with a non-empty shortname and
    a defined result. */
module Publisher {
  import opened Values
  import Collector

  /** A metric the keyed publishers include. */
  predicate Keyed(m: Collector.CollectorState) {
    |m.shortname| > 0 && m.result.Some?
  }

  /** The included metrics, in list order. */
  function KeyedMetrics(ms: seq<Collector.CollectorState>): (r: seq<Collector.CollectorState>)
    ensures |r| <= |ms|
    ensures forall i :: 0 <= i < |r| ==> Keyed(r[i])
    decreases |ms|
  {
    if |ms| == 0 then []
    else
      var n := |ms| - 1;
      KeyedMetrics(ms[..n]) + (if Keyed(ms[n]) then [ms[n]] else [])
  }

  /** The included metrics are exactly the metrics of the list that are keyed. */
  lemma {:induction false} KeyedMetricsMembers(ms: seq<Collector.CollectorState>)
    ensures forall m :: m in KeyedMetrics(ms) ==> Keyed(m) && m in ms
    ensures forall i :: 0 <= i < |ms| && Keyed(ms[i]) ==> ms[i] in KeyedMetrics(ms)
    decreases |ms|
  {
    if |ms| > 0 {
      var n := |ms| - 1;
      KeyedMetricsMembers(ms[..n]);
      assert forall i :: 0 <= i < n ==> ms[..n][i] == ms[i];
    }
  }

  /** Filtering distributes over concatenation, so the included metrics keep
      their relative order. */
  lemma {:induction false} KeyedMetricsAppend(a: seq<Collector.CollectorState>, b: seq<Collector.CollectorState>)
    ensures KeyedMetrics(a + b) == KeyedMetrics(a) + KeyedMetrics(b)
    decreases |b|
  {
    if |b| == 0 {
      assert a + b == a;
    } else {
      var n := |b| - 1;
      assert (a + b)[..|a + b| - 1] == a + b[..n];
      KeyedMetricsAppend(a, b[..n]);
    }
  }

  /** One more metric adds itself exactly when it is included. */
  lemma KeyedMetricsSnoc(ms: seq<Collector.CollectorState>, i: nat)
    requires i < |ms|
    ensures KeyedMetrics(ms[..i + 1]) == KeyedMetrics(ms[..i]) + (if Keyed(ms[i]) then [ms[i]] else [])
  {
    assert ms[..i + 1][..i] == ms[..i];
  }

  function Shortnames(ks: seq<Collector.CollectorState>): (r: seq<string>)
    ensures |r| == |ks|
  {
    seq(|ks|, i requires 0 <= i < |ks| => ks[i].shortname)
  }

  function Placeholders(n: nat): (r: seq<string>)
    ensures |r| == n
  {
    seq(n, _ => "%s")
  }

  /** The bound parameters: each included result converted to its data type. */
  function Params(ks: seq<Collector.CollectorState>): (r: seq<Typed>)
    requires forall i :: 0 <= i < |ks| ==> ks[i].result.Some?
    ensures |r| == |ks|
  {
    seq(|ks|, i requires 0 <= i < |ks| => Convert(ks[i].dataType, ks[i].result.value))
  }

  lemma ConcatAssoc(a: string, b: string, c: string)
    ensures a + (b + c) == a + b + c
  {
  }

  /** Appending `sep + x` to a string already extended by `tail`. */
  lemma AppendAfter(head: string, tail: string, sep: string, x: string)
    ensures head + tail + sep + x == head + (tail + sep + x)
  {
    ConcatAssoc(head, tail, sep);
    ConcatAssoc(head, tail + sep, x);
  }

  /** Each item preceded by a comma. */
  function CommaList(items: seq<string>): string
    decreases |items|
  {
    if |items| == 0 then ""
    else CommaList(items[..|items| - 1]) + "," + items[|items| - 1]
  }

  lemma CommaListSnoc(items: seq<string>, x: string)
    ensures CommaList(items + [x]) == CommaList(items) + "," + x
  {
    assert (items + [x])[..|items|] == items;
  }

  /** Items separated by commas. */
  function Join(items: seq<string>): string {
    if |items| == 0 then "" else items[0] + CommaList(items[1..])
  }

  /** An insert statement: the table, its column list and the value
      expressions in column order. */
  datatype InsertStatement = InsertStatement(table: string, columns: seq<string>, values: seq<string>)

  function RenderInsert(st: InsertStatement): string {
    "insert into " + st.table + "(" + Join(st.columns) + ") VALUES(" + Join(st.values) + ")"
  }

  /** The database a SQL publisher writes to: one of the two backends the
      agent ships with, or a plugin backend with its own timestamp text. */
  datatype Backend = Mysql | Pgsql | PluginBackend(timestamp: string)

  /** `current_timestamp_string` of a backend. */
  function TimestampExpression(b: Backend): string {
    match b
    case Mysql => "CURRENT_TIMESTAMP"
    case Pgsql => "now()"
    case PluginBackend(timestamp) => timestamp
  }

  lemma ShortnamesStep(ms: seq<Collector.CollectorState>, i: nat)
    requires i < |ms|
    ensures Keyed(ms[i]) ==> Shortnames(KeyedMetrics(ms[..i + 1])) == Shortnames(KeyedMetrics(ms[..i])) + [ms[i].shortname]
    ensures !Keyed(ms[i]) ==> Shortnames(KeyedMetrics(ms[..i + 1])) == Shortnames(KeyedMetrics(ms[..i]))
  {
    KeyedMetricsSnoc(ms, i);
    if !Keyed(ms[i]) {
      assert KeyedMetrics(ms[..i + 1]) == KeyedMetrics(ms[..i]);
    }
  }

  lemma ParamsStep(ms: seq<Collector.CollectorState>, i: nat)
    requires i < |ms|
    ensures Keyed(ms[i]) ==>
      Params(KeyedMetrics(ms[..i + 1])) == Params(KeyedMetrics(ms[..i])) + [Convert(ms[i].dataType, ms[i].result.value)]
    ensures !Keyed(ms[i]) ==> Params(KeyedMetrics(ms[..i + 1])) == Params(KeyedMetrics(ms[..i]))
  {
    KeyedMetricsSnoc(ms, i);
    if !Keyed(ms[i]) {
      assert KeyedMetrics(ms[..i + 1]) == KeyedMetrics(ms[..i]);
    }
  }

  /** The first loop of the SQL publisher: a comma and the shortname of each
      included metric, appended to `head`. */
  method AppendColumns(head: string, ms: seq<Collector.CollectorState>) returns (sql: string)
    ensures sql == head + CommaList(Shortnames(KeyedMetrics(ms)))
  {
    sql := head;
    var i := 0;
    while i < |ms|
      invariant 0 <= i <= |ms|
      invariant sql == head + CommaList(Shortnames(KeyedMetrics(ms[..i])))
    {
      ShortnamesStep(ms, i);
      var names := Shortnames(KeyedMetrics(ms[..i]));
      if |ms[i].shortname| > 0 && ms[i].result.Some? {
        CommaListSnoc(names, ms[i].shortname);
        AppendAfter(head, CommaList(names), ",", ms[i].shortname);
        sql := sql + "," + ms[i].shortname;
      }
      i := i + 1;
    }
    assert ms[..i] == ms;
  }

  /** The second loop of the SQL publisher: a `,%s` per included metric,
      appended to `head`, and that metric's converted result as parameter. */
  method AppendPlaceholders(head: string, ms: seq<Collector.CollectorState>) returns (sql: string, pars: seq<Typed>)
    ensures sql == head + CommaList(Placeholders(|KeyedMetrics(ms)|))
    ensures pars == Params(KeyedMetrics(ms))
  {
    sql := head;
    pars := [];
    var i := 0;
    while i < |ms|
      invariant 0 <= i <= |ms|
      invariant sql == head + CommaList(Placeholders(|KeyedMetrics(ms[..i])|))
      invariant pars == Params(KeyedMetrics(ms[..i]))
    {
      KeyedMetricsSnoc(ms, i);
      ParamsStep(ms, i);
      var n := |KeyedMetrics(ms[..i])|;
      if |ms[i].shortname| > 0 && ms[i].result.Some? {
        CommaListSnoc(Placeholders(n), "%s");
        assert Placeholders(n + 1) == Placeholders(n) + ["%s"];
        AppendAfter(head, CommaList(Placeholders(n)), ",", "%s");
        sql := sql + "," + "%s";
        pars := pars + [Convert(ms[i].dataType, ms[i].result.value)];
      }
      i := i + 1;
    }
    assert ms[..i] == ms;
  }

  /** Rendering a statement whose first column and value lead the lists. */
  lemma RenderInsertShape(table: string, column: string, columns: seq<string>, value: string, values: seq<string>)
    ensures RenderInsert(InsertStatement(table, [column] + columns, [value] + values)) ==
      "insert into " + table + "(" + column + CommaList(columns) + ") VALUES(" + value + CommaList(values) + ")"
  {
    assert ([column] + columns)[1..] == columns;
    assert ([value] + values)[1..] == values;
    var front := "insert into " + table + "(";
    ConcatAssoc(front, column, CommaList(columns));
    var middle := front + column + CommaList(columns) + ") VALUES(";
    ConcatAssoc(middle, value, CommaList(values));
  }

  /** `generate_string` of the SQL publisher: the statement text and the
      bound parameters. The columns are the timestamp column followed by the
      shortnames of the included metrics in list order; the values are the
      backend's timestamp expression followed by one `%s` per parameter, and
      parameter `i` is the converted result of the metric of column `i + 1`. */
  method GenerateSql(table: string, timestampName: string, backend: Backend, ms: seq<Collector.CollectorState>)
    returns (sql: string, pars: seq<Typed>)
    ensures var keyed := KeyedMetrics(ms);
      var st := InsertStatement(table, [timestampName] + Shortnames(keyed), [TimestampExpression(backend)] + Placeholders(|keyed|));
      && sql == RenderInsert(st)
      && |pars| == |keyed|
      && |st.columns| == |st.values| == |pars| + 1
      && forall i :: 0 <= i < |pars| ==>
           && st.columns[i + 1] == keyed[i].shortname
           && st.values[i + 1] == "%s"
           && pars[i] == Convert(keyed[i].dataType, keyed[i].result.value)
  {
    var keyed := KeyedMetrics(ms);
    sql := AppendColumns("insert into " + table + "(" + timestampName, ms);
    var timestampExpr := TimestampExpression(backend);
    sql, pars := AppendPlaceholders(sql + ") VALUES(" + timestampExpr, ms);
    sql := sql + ")";
    RenderInsertShape(table, timestampName, Shortnames(keyed), timestampExpr, Placeholders(|keyed|));
  }

  /** The shortnames of the included metrics among the first `n`. */
  function KeyedNames(ms: seq<Collector.CollectorState>, n: nat): set<string>
    requires n <= |ms|
  {
    set j | 0 <= j < n && Keyed(ms[j]) :: ms[j].shortname
  }

  lemma KeyedNamesStep(ms: seq<Collector.CollectorState>, i: nat)
    requires i < |ms|
    ensures KeyedNames(ms, i + 1) == KeyedNames(ms, i) + (if Keyed(ms[i]) then {ms[i].shortname} else {})
  {
  }

  /** Metric `j` is the last included one with its shortname among the first `n`. */
  ghost predicate LastWithName(ms: seq<Collector.CollectorState>, j: nat, n: nat)
    requires j < n <= |ms|
  {
    && Keyed(ms[j])
    && forall k :: j < k < n && Keyed(ms[k]) ==> ms[k].shortname != ms[j].shortname
  }

  lemma LastWithNameShrinks(ms: seq<Collector.CollectorState>, j: nat, i: nat)
    requires j < i < |ms| && LastWithName(ms, j, i + 1)
    ensures LastWithName(ms, j, i)
    ensures Keyed(ms[i]) ==> ms[i].shortname != ms[j].shortname
  {
  }

  /** The object after the first `n` metrics: one key per included
      shortname, holding the value of the last included metric with it. */
  ghost predicate Populated(ms: seq<Collector.CollectorState>, o: map<string, Typed>, n: nat)
    requires n <= |ms|
  {
    && o.Keys == KeyedNames(ms, n)
    && forall j: nat :: j < n && LastWithName(ms, j, n) ==>
         ms[j].shortname in o && o[ms[j].shortname] == Convert(ms[j].dataType, ms[j].result.value)
  }

  /** One iteration of the JSON loop: store an included metric under its shortname. */
  function Put(o: map<string, Typed>, m: Collector.CollectorState): map<string, Typed> {
    if |m.shortname| > 0 && m.result.Some? then o[m.shortname := Convert(m.dataType, m.result.value)] else o
  }

  lemma PopulatedStep(ms: seq<Collector.CollectorState>, o: map<string, Typed>, i: nat)
    requires i < |ms| && Populated(ms, o, i)
    ensures Populated(ms, Put(o, ms[i]), i + 1)
  {
    KeyedNamesStep(ms, i);
    var o' := Put(o, ms[i]);
    forall j: nat | j < i + 1 && LastWithName(ms, j, i + 1)
      ensures ms[j].shortname in o' && o'[ms[j].shortname] == Convert(ms[j].dataType, ms[j].result.value)
    {
      if j < i {
        LastWithNameShrinks(ms, j, i);
      }
    }
  }

  /** `generate_string` of the JSON publisher, before serialisation: one key
      per included shortname; when shortnames repeat, the last included
      metric wins. */
  method JsonObject(ms: seq<Collector.CollectorState>) returns (o: map<string, Typed>)
    ensures o.Keys == KeyedNames(ms, |ms|)
    ensures forall j: nat :: j < |ms| && LastWithName(ms, j, |ms|) ==>
      o[ms[j].shortname] == Convert(ms[j].dataType, ms[j].result.value)
  {
    o := map[];
    var i := 0;
    while i < |ms|
      invariant 0 <= i <= |ms|
      invariant Populated(ms, o, i)
    {
      PopulatedStep(ms, o, i);
      if |ms[i].shortname| > 0 && ms[i].result.Some? {
        o := o[ms[i].shortname := Convert(ms[i].dataType, ms[i].result.value)];
      }
      i := i + 1;
    }
  }

  /** The JSON object's keys are exactly the SQL statement's data columns. */
  lemma JsonKeysAreSqlColumns(ms: seq<Collector.CollectorState>)
    ensures KeyedNames(ms, |ms|) == set s | s in Shortnames(KeyedMetrics(ms))
  {
    var keyed := KeyedMetrics(ms);
    KeyedMetricsMembers(ms);
    forall s | s in Shortnames(keyed)
      ensures exists j :: 0 <= j < |ms| && Keyed(ms[j]) && ms[j].shortname == s
    {
      var k :| 0 <= k < |keyed| && Shortnames(keyed)[k] == s;
      assert keyed[k] in keyed;
      var j :| 0 <= j < |ms| && ms[j] == keyed[k];
    }
    forall j | 0 <= j < |ms| && Keyed(ms[j])
      ensures ms[j].shortname in Shortnames(keyed)
    {
      var k :| 0 <= k < |keyed| && keyed[k] == ms[j];
      assert Shortnames(keyed)[k] == ms[j].shortname;
    }
  }
}

=== FILE: registry.dfy ===
/** The type registry (`get_class`): a type name from the configuration is
    resolved to a built-in class, to a class loaded earlier from a plugin
    file, or to a class newly loaded from `plugin_<name>.py`, which is then
    cached. The module namespace and the file system are abstract: the set
    of global names, and for each plugin file present the symbols it
    defines once executed. */
module Registry {
  import opened Values

  /** The class-name prefix of a category; unknown categories have none. */
  function ClassPrefix(category: string): (p: string)
    ensures p != "" <==> category == "database" || category == "coll" || category == "pub"
    ensures p != "" ==> p[|p| - 1] == '_'
  {
    if category == "database" then "DatabaseConnection_"
    else if category == "coll" then "Collector_"
    else if category == "pub" then "Publisher_"
    else ""
  }

  /** The symbol a type name stands for in a category. */
  function ClassKey(name: string, category: string): string {
    ClassPrefix(category) + name
  }

  lemma PrefixCancels(p: string, a: string, b: string)
    ensures p + a == p + b <==> a == b
  {
    if p + a == p + b {
      assert a == (p + a)[|p|..];
    }
  }

  /** Within one category, distinct type names ask for distinct class names. */
  lemma ClassKeyInjective(a: string, b: string, category: string)
    ensures ClassKey(a, category) == ClassKey(b, category) <==> a == b
  {
    PrefixCancels(ClassPrefix(category), a, b);
  }

  /** The plugin file searched for a type name. */
  function PluginFile(name: string): string {
    "plugin_" + name + ".py"
  }

  /** A resolved class: a global of the agent itself, or a symbol taken from
      an executed plugin file. */
  datatype ClassRef = BuiltinClass(symbol: string) | PluginClass(file: string, symbol: string)

  /** The environment `get_class` consults: the agent's global names, and
      for each plugin file present the symbols it defines once executed.
      `forcedModes` records, for each plugin collector class whose
      constructor overrides the mode it is given (as the built-in network
      counters do), the mode it keeps instead. */
  datatype Env = Env(globals: set<string>, plugins: map<string, set<string>>, forcedModes: map<string, string>)

  /** The two `ValueError`s `get_class` raises. */
  datatype LoadError = CannotLoadClass(symbol: string) | CannotLoadFile(file: string)

  function ErrorMessage(e: LoadError): string {
    match e
    case CannotLoadClass(symbol) => "Error, cannot load class \"" + symbol + "\""
    case CannotLoadFile(file) => "Error, cannot load file \"" + file + "\""
  }

  /** `c'` keeps every entry of `c` unchanged. */
  predicate Extends(c: map<string, ClassRef>, c': map<string, ClassRef>) {
    forall k :: k in c ==> k in c' && c'[k] == c[k]
  }

  /** A type name resolves: its class is a global, is cached, or is defined
      by its plugin file. */
  predicate Resolvable(env: Env, cache: map<string, ClassRef>, name: string, category: string) {
    var key := ClassKey(name, category);
    || key in env.globals
    || key in cache
    || (PluginFile(name) in env.plugins && key in env.plugins[PluginFile(name)])
  }

  /** Every class `c'` holds beyond `c` is cached under the key of some type
      name in `category`, and that name's plugin file defines it. */
  ghost predicate LoadedByPlugins(env: Env, c: map<string, ClassRef>, c': map<string, ClassRef>, category: string) {
    forall k :: k in c' && k !in c ==>
      exists name :: k == ClassKey(name, category) && PluginFile(name) in env.plugins && k in env.plugins[PluginFile(name)]
  }

  lemma LoadedByPluginsTrans(env: Env, c1: map<string, ClassRef>, c2: map<string, ClassRef>, c3: map<string, ClassRef>, category: string)
    requires LoadedByPlugins(env, c1, c2, category) && LoadedByPlugins(env, c2, c3, category)
    ensures LoadedByPlugins(env, c1, c3, category)
  {
  }

  /** The first letter of a prefixed key tells its category apart from the
      other two. */
  lemma KeysOfCategoriesDiffer(a: string, b: string, category: string, other: string)
    requires ClassPrefix(category) != "" && ClassPrefix(other) != "" && category != other
    ensures ClassKey(a, category) != ClassKey(b, other)
  {
    assert ClassKey(a, category)[0] == ClassPrefix(category)[0];
    assert ClassKey(b, other)[0] == ClassPrefix(other)[0];
  }

  /** A name that resolves against a cache grown by plugin loads in `grown`
      already resolved before the growth, when its category is `grown` or
      another category with a prefix: the new keys cannot be its key. */
  lemma ResolvableBefore(env: Env, c: map<string, ClassRef>, c': map<string, ClassRef>, name: string, category: string, grown: string)
    requires LoadedByPlugins(env, c, c', grown)
    requires category == grown || (ClassPrefix(category) != "" && ClassPrefix(grown) != "")
    ensures Resolvable(env, c', name, category) ==> Resolvable(env, c, name, category)
  {
    var key := ClassKey(name, category);
    if key in c' && key !in c {
      var n :| key == ClassKey(n, grown) && PluginFile(n) in env.plugins && key in env.plugins[PluginFile(n)];
      if category == grown {
        ClassKeyInjective(n, name, category);
      } else {
        KeysOfCategoriesDiffer(name, n, category, grown);
      }
    }
  }

  /** A successful resolution: the class, the cache afterwards, and the
      plugin file executed on the way, if any. */
  datatype Resolution = Resolution(cls: ClassRef, cache: map<string, ClassRef>, executed: Option<string>)

  /** `get_class(name, category)` against the cache `dyn_loaded_classes`. */
  function GetClass(env: Env, cache: map<string, ClassRef>, name: string, category: string): (r: Result<Resolution, LoadError>)
    // resolution succeeds exactly for a name that is global, cached, or defined by its plugin file
    ensures r.Success? <==> Resolvable(env, cache, name, category)
    // a success never forgets or alters a cached class
    ensures r.Success? ==> Extends(cache, r.value.cache)
    // a file is executed only on a miss in both the globals and the cache, and it is the plugin file
    ensures r.Success? && r.value.executed.Some? ==>
      && ClassKey(name, category) !in env.globals
      && ClassKey(name, category) !in cache
      && r.value.executed.value == PluginFile(name)
      && r.value.cache == cache[ClassKey(name, category) := r.value.cls]
    ensures r.Success? && r.value.executed.None? ==> r.value.cache == cache
  {
    var key := ClassKey(name, category);
    if key in env.globals then
      Success(Resolution(BuiltinClass(key), cache, None))
    else if key in cache then
      Success(Resolution(cache[key], cache, None))
    else
      var file := PluginFile(name);
      if file in env.plugins then
        if key in env.plugins[file] then
          var cls := PluginClass(file, key);
          Success(Resolution(cls, cache[key := cls], Some(file)))
        else
          Failure(CannotLoadClass(key))
      else
        Failure(CannotLoadFile(file))
  }

  /** The resolution order: a built-in first, then a cached class without
      executing anything, then the plugin file; a missing file and a file
      lacking the symbol are the two failures. */
  lemma ResolutionOrder(env: Env, cache: map<string, ClassRef>, name: string, category: string)
    ensures var key := ClassKey(name, category);
      && (key in env.globals ==> GetClass(env, cache, name, category) == Success(Resolution(BuiltinClass(key), cache, None)))
      && (key !in env.globals && key in cache ==>
            GetClass(env, cache, name, category) == Success(Resolution(cache[key], cache, None)))
      && (key !in env.globals && key !in cache && PluginFile(name) !in env.plugins ==>
            GetClass(env, cache, name, category) == Failure(CannotLoadFile(PluginFile(name))))
      && (key !in env.globals && key !in cache && PluginFile(name) in env.plugins && key !in env.plugins[PluginFile(name)] ==>
            GetClass(env, cache, name, category) == Failure(CannotLoadClass(key)))
      && (key !in env.globals && key !in cache && PluginFile(name) in env.plugins && key in env.plugins[PluginFile(name)] ==>
            GetClass(env, cache, name, category) ==
              Success(Resolution(PluginClass(PluginFile(name), key), cache[key := PluginClass(PluginFile(name), key)], Some(PluginFile(name)))))
  {
  }

  /** Resolving again with the cache a success left behind gives the same
      class, changes nothing and executes no file. */
  lemma SecondResolutionIsCacheHit(env: Env, cache: map<string, ClassRef>, name: string, category: string)
    requires GetClass(env, cache, name, category).Success?
    ensures var first := GetClass(env, cache, name, category).value;
      GetClass(env, first.cache, name, category) == Success(Resolution(first.cls, first.cache, None))
  {
  }

  /** Every cached entry is a class its plugin file really defines, under the
      symbol it is cached by. */
  ghost predicate CacheConsistent(env: Env, cache: map<string, ClassRef>) {
    forall k :: k in cache ==>
      && cache[k].PluginClass?
      && cache[k].symbol == k
      && cache[k].file in env.plugins
      && k in env.plugins[cache[k].file]
  }

  /** The text of each `ValueError` a failed resolution raises: the class is
      named when its plugin file exists, the file otherwise. */
  lemma FailureMessage(env: Env, cache: map<string, ClassRef>, name: string, category: string)
    ensures var r := GetClass(env, cache, name, category);
      r.Failure? ==>
        && ClassKey(name, category) !in env.globals
        && ClassKey(name, category) !in cache
        && ErrorMessage(r.error) ==
             if PluginFile(name) in env.plugins
             then "Error, cannot load class \"" + ClassKey(name, category) + "\""
             else "Error, cannot load file \"" + "plugin_" + name + ".py" + "\""
  {
  }

  /** Whatever a resolution adds to the cache was loaded from the plugin file
      of the name. */
  lemma GetClassLoadsFromPlugins(env: Env, cache: map<string, ClassRef>, name: string, category: string)
    ensures var r := GetClass(env, cache, name, category);
      r.Success? ==> LoadedByPlugins(env, cache, r.value.cache, category)
  {
  }

  /** Resolution keeps the cache consistent, and the class it returns always
      carries the symbol the name and category ask for. */
  lemma GetClassKeepsCacheConsistent(env: Env, cache: map<string, ClassRef>, name: string, category: string)
    ensures var r := GetClass(env, cache, name, category);
      CacheConsistent(env, cache) && r.Success? ==> CacheConsistent(env, r.value.cache) && r.value.cls.symbol == ClassKey(name, category)
  {
  }

  /** Resolve a list of (type name, category) requests in order, threading the
      cache; the first failure aborts, as an exception does at load time. */
  function ResolveAll(env: Env, cache: map<string, ClassRef>, requests: seq<(string, string)>): (r: Result<(seq<ClassRef>, map<string, ClassRef>), LoadError>)
    ensures r.Success? ==> |r.value.0| == |requests| && Extends(cache, r.value.1)
    // requests that all resolve against the initial cache all resolve in turn
    ensures (forall i :: 0 <= i < |requests| ==> Resolvable(env, cache, requests[i].0, requests[i].1)) ==> r.Success?
    ensures r.Success? && CacheConsistent(env, cache) ==>
      && CacheConsistent(env, r.value.1)
      && forall i :: 0 <= i < |requests| ==> r.value.0[i].symbol == ClassKey(requests[i].0, requests[i].1)
    decreases |requests|
  {
    if |requests| == 0 then Success(([], cache))
    else
      var n := |requests| - 1;
      var prev :- ResolveAll(env, cache, requests[..n]);
      var res :- GetClass(env, prev.1, requests[n].0, requests[n].1);
      GetClassKeepsCacheConsistent(env, prev.1, requests[n].0, requests[n].1);
      Success((prev.0 + [res.cls], res.cache))
  }

  /** Requests of a single category resolve in turn exactly when each
      resolves against the initial cache, and what they add was loaded from
      plugin files. */
  lemma {:induction false} ResolveAllOneCategory(env: Env, cache: map<string, ClassRef>, requests: seq<(string, string)>, category: string)
    requires forall i :: 0 <= i < |requests| ==> requests[i].1 == category
    ensures ResolveAll(env, cache, requests).Success? <==>
      forall i :: 0 <= i < |requests| ==> Resolvable(env, cache, requests[i].0, category)
    ensures ResolveAll(env, cache, requests).Success? ==>
      LoadedByPlugins(env, cache, ResolveAll(env, cache, requests).value.1, category)
    decreases |requests|
  {
    if |requests| > 0 {
      var n := |requests| - 1;
      ResolveAllOneCategory(env, cache, requests[..n], category);
      var prev := ResolveAll(env, cache, requests[..n]);
      if prev.Success? {
        var r := GetClass(env, prev.value.1, requests[n].0, category);
        ResolvableBefore(env, cache, prev.value.1, requests[n].0, category, category);
        if r.Success? {
          GetClassLoadsFromPlugins(env, prev.value.1, requests[n].0, category);
          LoadedByPluginsTrans(env, cache, prev.value.1, r.value.cache, category);
        }
      }
    }
  }
}

=== FILE: scheduler.dfy ===
/** Selection of the sampling interval (`Controller.wait`): a fold over the
    ordered conditional-interval rules with a running priority that starts at
    0 and a running interval that starts at the baseline. The clock is
    replaced by an hour and a lower-case weekday abbreviation. */
module Scheduler {
  import opened Values

  /** A conditional interval rule as the loader stores it (`n`, `dow`, `fh`,
      `uh`, `pri`, `int`). */
  datatype Rule = Rule(
    name: string,
    dow: Option<string>,
    fromHour: Option<int>,
    untilHour: Option<int>,
    priority: int,
    interval: real)

  /** A rule applies at `hour` on `weekday` when every bound it sets holds. */
  predicate Matches(r: Rule, hour: int, weekday: string) {
    && (r.dow.None? || r.dow.value == weekday)
    && (r.fromHour.None? || hour >= r.fromHour.value)
    && (r.untilHour.None? || hour <= r.untilHour.value)
  }

  /** The running state of the loop: priority and interval chosen so far. */
  datatype Selection = Selection(priority: int, interval: real)

  /** One iteration of the loop body on rule `r`. */
  function Step(s: Selection, r: Rule, hour: int, weekday: string): (t: Selection)
    // the running priority never drops, and the state is either kept or taken from the rule
    ensures t.priority >= s.priority
    ensures t == s || t == Selection(r.priority, r.interval)
    // the rule is taken exactly when it applies and does not rank below the running priority
    ensures t == Selection(r.priority, r.interval) <== Matches(r, hour, weekday) && r.priority >= s.priority
    ensures t == s <== !Matches(r, hour, weekday) || r.priority < s.priority
  {
    if !Matches(r, hour, weekday) || s.priority > r.priority then s
    else Selection(r.priority, r.interval)
  }

  /** The running state after the first `n` rules. */
  function Run(baseline: real, rules: seq<Rule>, n: nat, hour: int, weekday: string): (s: Selection)
    requires n <= |rules|
    // the running priority starts at 0 and never drops
    ensures s.priority >= 0
    ensures 0 < n ==> s.priority >= Run(baseline, rules, n - 1, hour, weekday).priority
  {
    if n == 0 then Selection(0, baseline)
    else Step(Run(baseline, rules, n - 1, hour, weekday), rules[n - 1], hour, weekday)
  }

  /** The state after the first `n` rules is the initial one or was taken
      from an eligible rule among them. */
  lemma {:induction false} RunOrigin(baseline: real, rules: seq<Rule>, n: nat, hour: int, weekday: string)
    requires n <= |rules|
    ensures var s := Run(baseline, rules, n, hour, weekday);
      s == Selection(0, baseline)
      || exists j :: 0 <= j < n && Eligible(rules[j], hour, weekday) && s == Selection(rules[j].priority, rules[j].interval)
  {
    if n > 0 {
      var s := Run(baseline, rules, n - 1, hour, weekday);
      if Run(baseline, rules, n, hour, weekday) == s {
        RunOrigin(baseline, rules, n - 1, hour, weekday);
      } else {
        // rule n - 1 was taken, so it applies and outranks a priority >= 0
        assert Eligible(rules[n - 1], hour, weekday);
      }
    }
  }

  /** The interval `wait` sleeps for and records as `last_wait_sec`. */
  function SelectInterval(baseline: real, rules: seq<Rule>, hour: int, weekday: string): (r: real)
    ensures r == baseline || exists j :: 0 <= j < |rules| && Eligible(rules[j], hour, weekday) && r == rules[j].interval
  {
    RunOrigin(baseline, rules, |rules|, hour, weekday);
    Run(baseline, rules, |rules|, hour, weekday).interval
  }

  /** A rule that can override the baseline: it applies and its priority is
      not negative. */
  predicate Eligible(r: Rule, hour: int, weekday: string) {
    Matches(r, hour, weekday) && r.priority >= 0
  }

  /** Rule `w` wins among the first `n` rules: it is eligible, no applicable
      rule has a higher priority, and every later applicable rule has a
      strictly lower one (ties go to the later rule). */
  ghost predicate Wins(rules: seq<Rule>, n: nat, w: nat, hour: int, weekday: string)
    requires n <= |rules|
  {
    && w < n
    && Eligible(rules[w], hour, weekday)
    && (forall j :: 0 <= j < n && Matches(rules[j], hour, weekday) ==> rules[j].priority <= rules[w].priority)
    && (forall j :: w < j < n && Matches(rules[j], hour, weekday) ==> rules[j].priority < rules[w].priority)
  }

  /** Loop invariant of the selection after the first `n` rules: the running
      priority is the maximum of 0 and every applicable priority so far; the
      running state is the baseline while no rule is eligible, and the
      winner's otherwise. */
  ghost predicate Invariant(baseline: real, rules: seq<Rule>, n: nat, s: Selection, hour: int, weekday: string)
    requires n <= |rules|
  {
    && s.priority >= 0
    && (forall j :: 0 <= j < n && Matches(rules[j], hour, weekday) ==> rules[j].priority <= s.priority)
    && ((forall j :: 0 <= j < n ==> !Eligible(rules[j], hour, weekday)) ==> s == Selection(0, baseline))
    && ((exists j :: 0 <= j < n && Eligible(rules[j], hour, weekday)) ==>
          exists w: nat :: Wins(rules, n, w, hour, weekday) && s == Selection(rules[w].priority, rules[w].interval))
  }

  /** The running state satisfies the loop invariant after every prefix. */
  lemma {:induction false} RunInvariant(baseline: real, rules: seq<Rule>, n: nat, hour: int, weekday: string)
    requires n <= |rules|
    ensures Invariant(baseline, rules, n, Run(baseline, rules, n, hour, weekday), hour, weekday)
  {
    if n > 0 {
      RunInvariant(baseline, rules, n - 1, hour, weekday);
      var s := Run(baseline, rules, n - 1, hour, weekday);
      InvariantStep(baseline, rules, n, s, hour, weekday);
      assert Run(baseline, rules, n, hour, weekday) == Step(s, rules[n - 1], hour, weekday);
    }
  }

  /** One step of the loop keeps the invariant: stepping a state that
      satisfies it for the first `n - 1` rules on rule `n - 1` gives one that
      satisfies it for the first `n`. */
  lemma InvariantStep(baseline: real, rules: seq<Rule>, n: nat, s: Selection, hour: int, weekday: string)
    requires 0 < n <= |rules|
    requires Invariant(baseline, rules, n - 1, s, hour, weekday)
    ensures Invariant(baseline, rules, n, Step(s, rules[n - 1], hour, weekday), hour, weekday)
  {
    var r := rules[n - 1];
    if Matches(r, hour, weekday) && s.priority <= r.priority {
      assert Wins(rules, n, n - 1, hour, weekday);
    } else if exists j :: 0 <= j < n - 1 && Eligible(rules[j], hour, weekday) {
      var w: nat :| Wins(rules, n - 1, w, hour, weekday) && s == Selection(rules[w].priority, rules[w].interval);
      assert Wins(rules, n, w, hour, weekday);
    } else {
      // nothing eligible before, so the running priority is 0 and rule
      // n - 1, being skipped, is not eligible either
      assert !Eligible(r, hour, weekday);
    }
  }

  /** At most one rule wins. */
  lemma WinnerUnique(rules: seq<Rule>, n: nat, w1: nat, w2: nat, hour: int, weekday: string)
    requires n <= |rules|
    requires Wins(rules, n, w1, hour, weekday) && Wins(rules, n, w2, hour, weekday)
    ensures w1 == w2
  {
  }

  /** The selected interval is the baseline when no rule is eligible (none
      applies, or all that apply have negative priority), and otherwise the
      interval of the unique winning rule: highest priority, ties to the later. */
  lemma SelectIntervalSpec(baseline: real, rules: seq<Rule>, hour: int, weekday: string)
    ensures (forall j :: 0 <= j < |rules| ==> !Eligible(rules[j], hour, weekday)) ==>
      SelectInterval(baseline, rules, hour, weekday) == baseline
    ensures (exists j :: 0 <= j < |rules| && Eligible(rules[j], hour, weekday)) ==>
      exists w: nat :: Wins(rules, |rules|, w, hour, weekday)
    ensures forall w: nat :: Wins(rules, |rules|, w, hour, weekday) ==>
      SelectInterval(baseline, rules, hour, weekday) == rules[w].interval
  {
    RunInvariant(baseline, rules, |rules|, hour, weekday);
    forall w: nat | Wins(rules, |rules|, w, hour, weekday)
      ensures SelectInterval(baseline, rules, hour, weekday) == rules[w].interval
    {
      var v: nat :| Wins(rules, |rules|, v, hour, weekday)
        && Run(baseline, rules, |rules|, hour, weekday) == Selection(rules[v].priority, rules[v].interval);
      WinnerUnique(rules, |rules|, v, w, hour, weekday);
    }
  }

  /** Of two applicable rules with the same non-negative priority and nothing
      higher, the later one's interval is chosen. */
  lemma LaterRuleWinsTie(baseline: real, a: Rule, b: Rule, hour: int, weekday: string)
    requires Matches(a, hour, weekday) && Matches(b, hour, weekday)
    requires a.priority == b.priority && a.priority >= 0
    ensures SelectInterval(baseline, [a, b], hour, weekday) == b.interval
  {
    assert Wins([a, b], 2, 1, hour, weekday);
    SelectIntervalSpec(baseline, [a, b], hour, weekday);
  }

  /** The worked examples: a Monday rule with priority 1 and interval 10 and
      a 9-17h rule with priority 2 and interval 30. */
  lemma WorkedExamples(baseline: real)
    ensures var rules := [Rule("", Some("mon"), None, None, 1, 10.0), Rule("", None, Some(9), Some(17), 2, 30.0)];
      && SelectInterval(baseline, rules, 10, "mon") == 30.0
      && SelectInterval(baseline, rules, 20, "mon") == 10.0
      && SelectInterval(baseline, rules, 20, "tue") == baseline
  {
    var rules := [Rule("", Some("mon"), None, None, 1, 10.0), Rule("", None, Some(9), Some(17), 2, 30.0)];
    assert "mon" != "tue" by { assert "mon"[0] != "tue"[0]; }
    assert Run(baseline, rules, 1, 10, "mon") == Selection(1, 10.0);
    assert Run(baseline, rules, 1, 20, "mon") == Selection(1, 10.0);
    assert Run(baseline, rules, 1, 20, "tue") == Selection(0, baseline);
  }
}

=== FILE: values.dfy ===
/** Optional values, results with errors, and the typed forms a collector's
    derived value takes when a publisher consumes it. */
module Values {

  /** Python's `None` versus a present value. */
  datatype Option<+T> = None | Some(value: T)

  /** A computation that either succeeds or raises the given error; `:-`
      propagates the error, as an uncaught exception does. */
  datatype Result<+T, +E> = Success(value: T) | Failure(error: E) {
    predicate IsFailure() {
      Failure?
    }

    function PropagateFailure<U>(): Result<U, E>
      requires Failure?
    {
      Failure(error)
    }

    function Extract(): T
      requires Success?
    {
      value
    }
  }

  /** What `convert_to_reqtype` produces for a collector's declared data type:
      an `int`, a `float`, the decimal text of a value (its formatting is not
      modelled, so the text is represented by the value it renders), or
      Python's `None` for an unknown data type. */
  datatype Typed = IntVal(i: int) | FloatVal(f: real) | StrOf(v: real) | NoValue

  /** Python's `int()` applied to a number: truncation toward zero. */
  function TruncateTowardZero(x: real): (r: int)
    ensures 0.0 <= x ==> 0 <= r && r as real <= x < r as real + 1.0
    ensures x < 0.0 ==> r <= 0 && r as real - 1.0 < x <= r as real
  {
    if x >= 0.0 then x.Floor else -((-x).Floor)
  }

  /** The data types `convert_to_reqtype` recognises. */
  predicate KnownDataType(dataType: string) {
    dataType == "int" || dataType == "float" || dataType == "str"
  }

  /** `convert_to_reqtype`: coerce a derived value to the declared data type. */
  function Convert(dataType: string, v: real): (t: Typed)
    ensures t.NoValue? <==> !KnownDataType(dataType)
  {
    if dataType == "int" then IntVal(TruncateTowardZero(v))
    else if dataType == "float" then FloatVal(v)
    else if dataType == "str" then StrOf(v)
    else NoValue
  }

  /** The number a typed value stands for, if any. */
  function Denote(t: Typed): Option<real> {
    match t
    case IntVal(i) => Some(i as real)
    case FloatVal(f) => Some(f)
    case StrOf(v) => Some(v)
    case NoValue => None
  }

  predicate Integral(v: real) {
    v == v.Floor as real
  }

  /** Converting to any known data type loses nothing exactly when the value
      is integral or the target is not `int`; an unknown target loses it. */
  lemma ConvertLossless(dataType: string, v: real)
    ensures KnownDataType(dataType) && Integral(v) ==> Denote(Convert(dataType, v)) == Some(v)
    ensures Denote(Convert("int", v)) == Some(v) <==> Integral(v)
    ensures !KnownDataType(dataType) ==> Denote(Convert(dataType, v)) == None
  {
    var i := TruncateTowardZero(v);
    if Integral(v) {
      if v >= 0.0 {
        assert i == v.Floor;
      } else {
        assert (-v).Floor == -(v.Floor);
      }
    }
    if i as real == v {
      assert v.Floor == i;
    }
  }
}
